=== FILE: README.md ===
# somebuild, modelled in Dafny

somebuild builds one package of Some OS from a `SOMEBUILD.toml` manifest.
First it resolves the input directory, which holds the manifest, and the
output directory, where the build happens. Then it downloads the source
archive named by the manifest's URL. While the body streams in, it moves a
download bar and feeds every chunk to a BLAKE3 hasher. The archive is
unpacked with the decoder its suffix selects (`.tar.zst`, `.tar.xz`,
`.tar.gz`, `.tar.bz2`), and the digest is then checked against the
manifest's hash. Last, it runs the manifest's setup, build and install
scripts, in that order, in the unpacked directory `<output>/<archive name
without suffix>`. Before each script runs, its macros are expanded:
`%configure`, `%make_install` and `%make`. A build bar of length 3 moves
once per finished phase. Every error ends the process at once: `fatal!`
exits with status 1, and a failed `expect` or `unwrap` panics with status 101.

The model is a set of pure functions that produce a trace of observable
events, of type `Trace.Event`, together with a result that is either `Ok` or
`Halted(<reason>)`. Everything outside the process is an oracle gathered in
`Somebuild.World`:

- the file system (`canonicalize`, reading and parsing the manifest);
- URL parsing (the last path segment);
- the network (an optional content length plus a finite sequence of chunks);
- the unpacker (does the stream, decoded with this decoder, unpack?);
- BLAKE3 (an uninterpreted function of the bytes hashed);
- the shell (exit code, stdout and stderr, or nothing when the script cannot
  start).

Modules:

- `RustStd`: the parts of Rust's standard library the logic depends on:
  - `str::trim` over Unicode White_Space;
  - `ends_with`;
  - `str::replace`, which scans left to right, never overlaps matches and
    never rescans inserted text;
  - `Path::join` on Unix.
- `Log`: how the process stops, as a `Halt` per stopping site, with its exit
  status.
- `Decompression`: the suffix classifier and `decompress`.
- `Trace`: events, phases, and the build-bar count.
- `Downloader`:
  - `Download::new` naming;
  - the per-chunk fold of the progress clamp and the hasher feed;
  - `Download::download`.
- `Command`: macro expansion and `command::run`.
- `Expansion`: what the expansion does to particular scripts.
- `SomebuildConfig`: the manifest's shape.
- `Somebuild`: `main`, covering the path checks, the manifest, the package
  pipeline and the exit status.

## Model

| member | source | states |
|---|---|---|
| RustStd.Trim | src/decompress.rs:16 | `str::trim`: the result has no whitespace at either end and is no longer than its input; TrimSpec characterises it as the slice between whitespace-only ends |
| RustStd.TrimSpec | src/decompress.rs:16 | `Trim(s)` is `s` with whitespace cut from both ends: what is cut is whitespace, and the result starts and ends with non-whitespace or is empty |
| RustStd.TrimTrimmed | src/command.rs:12 | trimming a string whose ends are not whitespace returns it unchanged |
| RustStd.TrimIgnoresPadding | src/downloader.rs:33 | whitespace added around a string never changes its trim |
| RustStd.ReplaceAll | src/command.rs:8-14 | `str::replace` (no contract of its own): its behaviour is stated by ReplaceAllFixed, ReplaceAllLength, ReplaceAllAbsent and ReplaceAllConcat |
| RustStd.ReplaceAllFixed | src/command.rs:8-14 | a replacement leaves a string unchanged exactly when the pattern does not occur in it or the replacement equals the pattern |
| RustStd.ReplaceAllLength | src/command.rs:8-14 | a replacement at least as long as the pattern never shrinks the string, and one at most as long never grows it |
| RustStd.ReplaceAllAbsent | src/command.rs:8-14 | a string without the pattern's first character passes through a replacement unchanged |
| RustStd.ReplaceAllConcat | src/command.rs:8-14 | replacing in `a + b` replaces in each part separately when no occurrence straddles the boundary |
| RustStd.JoinPath | src/main.rs:107 | the joined path ends with the component; an absolute component replaces the base; otherwise the base comes first, followed by a `/` exactly when the base is non-empty and does not already end in one |
| RustStd.JoinPathAssociative | src/main.rs:107 | joining `b` then `c` onto `a` names the same path as joining `b.join(c)` onto `a`, so no separator is doubled or lost |
| Decompression.Classify | src/decompress.rs:20-66 | the decoder chosen is one whose suffix the name ends with; there is none exactly when the name ends in no supported suffix (case-sensitive) |
| Decompression.SuffixesDisjoint | src/downloader.rs:36-60 | no supported suffix ends with another one |
| Decompression.ClassifyUnique | src/downloader.rs:36-60 | a name ending in the suffix of `d` is classified as `d`, so the order of the if-chain never decides the outcome |
| Decompression.StripSuffix | src/decompress.rs:31 | the truncated name followed by the suffix is the name again |
| Decompression.Decompress | src/decompress.rs:16-70 | a decoder is opened exactly when the trimmed name has a supported suffix, and it is that suffix's decoder; otherwise the result is fatal and names the trimmed name, before any unpack; success means the unpack succeeded; a failed unpack panics; the name returned plus the suffix is the trimmed input |
| Decompression.DecompressSelectsDecoder | src/decompress.rs:20-65 | each suffix selects its own decoder, and the base name in front of it is returned, once unpacking succeeds |
| Decompression.DecompressIgnoresPadding | src/decompress.rs:16 | whitespace around the name never changes the decoder, the outcome or the name returned |
| Decompression.DecompressExtensionOnly | src/downloader.rs:109 | called with just the extension, as the downloader does, `decompress` always finds a decoder and returns `""` or panics on unpack |
| Downloader.NewDownload | src/downloader.rs:27-62 | an unusable URL panics; otherwise the trimmed last segment is accepted exactly when it ends with a supported suffix, and the fatal error names the trimmed segment; on success `full_file_name` is the trimmed segment and equals `file_name + extension`, where the extension is the matching suffix |
| Downloader.NewDownloadTrimmed | src/downloader.rs:33-59 | a segment whose trim ends in the suffix of `d` is split into that trim, the trim without the suffix, and the suffix |
| Downloader.NewDownloadSplit | src/downloader.rs:27-59 | exactly one suffix is stripped, whatever the base name ends with, and whitespace around the segment plays no part |
| Downloader.NewDownloadStripsOneSuffix | src/downloader.rs:42-47 | `x.tar.gz.tar.xz` gives the base `x.tar.gz` and the extension `.tar.xz` |
| Downloader.Inspect | src/downloader.rs:98-105 | one chunk through both closures: the new position is at most the total and at most the old position plus the chunk, and equals one of the two; the hasher has received exactly the chunk after what it had |
| Downloader.Drain | src/downloader.rs:96-107 | the stream fold: one bar position per chunk, none above the total; DrainPosition, DrainFeedsHasher and DrainClosedForm give each position and the bytes hashed |
| Downloader.DrainPosition | src/downloader.rs:99-101 | after chunk `i` the bar is at `min(start + bytes of chunks 0..i, total)`: the per-chunk clamp equals one clamp of the running sum |
| Downloader.DrainFeedsHasher | src/downloader.rs:103-105 | one bar update per chunk, and the hasher is fed exactly the concatenation of the chunks, in stream order |
| Downloader.DrainClosedForm | src/downloader.rs:96-107 | the whole stream fold in closed form: every position, and the bytes hashed |
| Downloader.ProgressBounds | src/downloader.rs:85-101 | the bar never moves back and never passes the total; with no content length it stays at 0; it ends at the smaller of the total and the body's size |
| Downloader.ProgressExample | src/downloader.rs:99 | chunks of 10, 20 and 5 bytes move the bar to 10, 30, 35 against a total of 35, and to 10, 30, 30 against a total of 30 |
| Downloader.Stream | src/downloader.rs:94-107 | starting from `downloaded = 0` and a fresh hasher: one position per chunk, the clamped running sum, and the whole body hashed |
| Downloader.Received | src/downloader.rs:83-101 | the request comes first, then one bar update per chunk, to the clamped count of bytes received so far |
| Downloader.Verify | src/downloader.rs:113-122 | the digest comparison is exact string equality; a mismatch is fatal and reports the URL and both digests |
| Downloader.Unpack | src/downloader.rs:109-122 | the digest is compared only after `decompress` has unpacked; success implies the digest matched |
| Downloader.Download | src/downloader.rs:74-123 | the request comes first; nothing belongs to a build phase; the digest comparison can only be the last event and directly follows the unpack; success ends with a matching comparison |
| Downloader.DownloadProgress | src/downloader.rs:96-101 | in the trace of a download, the bar update after chunk `i` is the clamped byte count so far |
| Downloader.DownloadOutcome | src/downloader.rs:83-122 | a failed request panics; otherwise success holds exactly when the extension has a decoder, the body unpacks with it and its digest is the expected one; each failure is reported by its own halt |
| Downloader.DownloadUsesOwnDecoder | src/downloader.rs:109 | for names built by `Download::new`, the archive is unpacked with the decoder of its own suffix, and the download succeeds exactly when unpacking succeeds and the digest matches |
| Downloader.UnpackOwnDecoder | src/downloader.rs:109-122 | with the extension alone, a failed unpack panics with no further event; otherwise the unpack is followed by the comparison of the expected digest with the one found |
| Command.InstallInvocation | src/command.rs:12 | the `trim` on the install step is a no-op: it is exactly `make DESTDIR=<path>/.. install` |
| Command.Expand | src/command.rs:15 | the script handed to the shell has no whitespace at either end |
| Command.Run | src/command.rs:18-27 | the script is run in the given directory; a script that cannot start panics; success holds exactly when the exit code is 0; a non-zero code is fatal and reports the expanded script, the code, stderr and stdout |
| Command.RunExitStatus | src/command.rs:21-26 | a failed phase exits with status 1 exactly when the script started |
| Expansion.ExpandPlain | src/command.rs:8-16 | a script without `%` is run as written, only trimmed |
| Expansion.ExpandConfigure | src/command.rs:9 | `%configure` followed by plain text becomes `./configure --prefix=/usr` followed by that text, with no name or version flags |
| Expansion.ExpandConfigureAlone | src/command.rs:9 | `%configure` alone becomes exactly `./configure --prefix=/usr` |
| Expansion.ConfigureSkipsMake | src/command.rs:9 | the `%configure` pass leaves `%make…` scripts alone |
| Expansion.InstallSkipsMake | src/command.rs:10-13 | `%make` followed by plain text is not matched by `%make_install` unless that text starts with `_install` |
| Expansion.ExpandMakeInstall | src/command.rs:10-14 | `%make_install` followed by any text without `%` becomes the install step with `DESTDIR` one level above the working directory, followed by that text; the directory's text is then rescanned for `%make` |
| Expansion.ExpandMakeInstallPlain | src/command.rs:10-13 | for a working directory without `%`, `%make_install` becomes exactly `make DESTDIR=<path>/.. install` |
| Expansion.ExpandRewritesPath | src/command.rs:14 | a working directory `/b/%make` comes out as `/b/make` inside `DESTDIR`, because the inserted text is rescanned |
| Expansion.ExpandMake | src/command.rs:14 | `%make` followed by plain text that does not start with `_install` becomes `make` followed by that text |
| Expansion.ExpandMakeInWord | src/command.rs:14 | `%makeflags` becomes `makeflags`: `%make` matches inside a longer word |
| Expansion.MakeFirstBreaksInstall | src/command.rs:8-14 | had `%make` been replaced first, `%make_install` would have become `make_install`, so the order of the passes matters |
| Expansion.ExpandConfigureThenInstall | src/command.rs:8-16 | `%configure && %make_install` in a directory without `%` becomes `./configure --prefix=/usr && ` followed by the install step, with no macro left |
| Expansion.ExpandIgnoresPadding | src/command.rs:15 | whitespace around a manifest script never changes the script run |
| Somebuild.RunPhases | src/main.rs:107-122 | the phase loop: no events exactly when there are no phases, at most a script and a bar step per phase, and both for every phase on success; RunPhasesOrder, RunPhasesSucceeds, RunPhasesFailFast and RunPhasesWorkdir state the rest |
| Somebuild.RunPhasesCount | src/main.rs:107-122 | on success every phase ran and moved the bar once; on failure at least one phase ran, and the bar moved once per phase except the last one run |
| Somebuild.RunPhasesOrder | src/main.rs:107-121 | the phases run are a prefix of the given phases, in their order |
| Somebuild.RunPhasesSucceeds | src/main.rs:107-122 | the run succeeds exactly when every phase's script succeeds |
| Somebuild.RunPhasesFailFast | src/main.rs:107-122 | a failed run ends with the error of some phase after all earlier phases succeeded, and that phase's script is the last event |
| Somebuild.RunPhasesWorkdir | src/main.rs:107-121 | every script runs in the one working directory given |
| Somebuild.CheckPaths | src/main.rs:44-70 | the paths pass exactly when both resolve and neither is a file; otherwise the first failure, in the order input resolve, output resolve, input is a file, output is a file, is the halt |
| Somebuild.PathsResolvedFirst | src/main.rs:44-70 | an output path that does not resolve is reported even when the input is a file; every path failure exits with status 1 |
| Somebuild.PhasedFacts | src/main.rs:98-122 | the three-phase run has only build events, all in its working directory; the bar never passes 3 and is full exactly on success; phases run = bar moves or one more; the phases are a prefix of setup, build, install, and all three on success |
| Somebuild.PhasedFailFast | src/main.rs:107-122 | the three-phase run succeeds exactly when every script exits with 0; otherwise it stops at the first failing script, which is the last one run |
| Somebuild.Package | src/main.rs:94-122 | naming, download and verification, then the three phases (no contract of its own): stated by PackageVerifiesFirst, PackageBuildBar, PackageWorkdir, PackageFailFast and PackageSucceeds |
| Somebuild.PackageVerifiesFirst | src/main.rs:94-107 | if any phase ran, or the package succeeded, the digest matched the manifest's hash before any build event, and only build events followed |
| Somebuild.PackageBuildBar | src/main.rs:98-122 | the bar (length 3) is full exactly when the package succeeds; it moves once per finished phase; the phases are a prefix of setup, build, install, and all three on success |
| Somebuild.PackageWorkdir | src/main.rs:107-121 | every phase runs in `output.join(file_name)`, with the archive name as `Download::new` stripped it |
| Somebuild.SetupFailureStops | src/main.rs:107-114 | a failing setup script ends the run with its own error; the build and install scripts never run, and the bar stays at 0 |
| Somebuild.PackageFailFast | src/main.rs:94-122 | the package stops at the first failure among naming the archive, downloading and verifying it, and the three scripts; it succeeds exactly when every script succeeds after a verified download |
| Somebuild.PackageSucceeds | src/main.rs:94-122 | a URL ending in `<base><suffix>`, a body that unpacks and hashes to the manifest's hash, and three scripts that exit with 0 give a successful package: setup, build and install run in `<output>/<base>`, and the bar is full |
| Somebuild.Main | src/main.rs:36-128 | `main` (no contract of its own): stated by MainOrder, MainBuildBar, MainVerifiesFirst and MainWorkdir |
| Somebuild.MainOrder | src/main.rs:44-94 | a path failure stops before the manifest is read and exits with 1; otherwise the manifest is read first, from `<input>/SOMEBUILD.toml`; a manifest that cannot be read panics (101); a parsed manifest is followed by the package in the canonical output directory |
| Somebuild.MainBuildBar | src/main.rs:98-127 | in all of `main`, the bar never passes 3 and is full exactly on success, and the phases run are a prefix of setup, build, install, all three on success |
| Somebuild.MainVerifiesFirst | src/main.rs:94-122 | no phase of `main` starts before the archive's digest matched the hash of the manifest read |
| Somebuild.MainWorkdir | src/main.rs:94-121 | every phase of `main` runs in the canonical output directory joined with the stripped archive name |
| Log.Halt.ExitStatus | src/log.rs:15-23 | a halt never exits with 0, and exits with 1 exactly when it is not a panic (`fatal!` calls `exit(1)`; a panic exits with 101) |
| Somebuild.ExitCode | src/log.rs:15-23 | the exit status is 0 exactly on success; a failure exits with 1 exactly when it comes from `fatal!`, and with a panic's status otherwise |

## Left out

- Networking, URL parsing, BLAKE3, and the decoders and tar unpacking are
  oracles. The network is an optional content length plus a finite sequence
  of chunks. A failed chunk (`map_err`) is not modelled.
- Async execution, stream pinning and back-pressure are left out. The stream
  is a sequential fold, and the decoder is assumed to read the whole body, so
  the hasher sees every chunk.
- The unpack oracle is not told the output directory. Where the archive lands
  is taken from `output.join(file_name)`, as the phases assume.
- Progress-bar styling (src/bars.rs), log messages and their text, the `info!`
  lines, and `down.finish()` are left out. The bars appear only as the
  positions they are moved to.
- The `paths` module and `normalize_path` are not part of this model. Path
  canonicalisation is an oracle; its error text appears only inside the
  halt.
- Command-line parsing (clap) is left out. The two directories are
  parameters of `Main`.
- TOML parsing and serde are left out: opening, reading or parsing the
  manifest is one oracle that can fail. The `clang` and `true` serde
  defaults are not modelled; `ConfigBuildOptions` carries whatever the
  parser yields. src/somebuild_parser.rs is not part of this model.
- The `to_str().unwrap()` panic on a non-UTF-8 working directory is left out.
  Paths are strings.
- Downloader.DrainPosition: positions are unbounded naturals and u64
  wrap-around is not modelled. `downloaded` never exceeds the bytes received
  so far, since `min(prev + len, total) <= prev + len`, so `downloaded + len`
  could wrap only after more than 2^64 bytes had been streamed.
- RustStd.ReplaceAllFixed: like every `ReplaceAll` lemma, it requires a
  non-empty pattern. `str::replace` with an empty pattern is never called
  here.
- Expansion.ExpandMake: it covers `%make` followed by plain text other than
  `_install`. The `_install` case is ExpandMakeInstall.
- The shell oracle depends only on the expanded script and the working
  directory, so two phases with the same script in the same directory have
  the same outcome. In the program each phase runs after the previous one
  has changed that directory; the oracle does not see that state.
- The `Ran` event carries the manifest script, not the expanded one. The
  expanded script is what `Command.Run` hands to the shell oracle and
  reports on failure.

Facts about the code that the model keeps as they are:

- `DESTDIR` is `<working directory>/..`.
- `%configure` adds only `--prefix=/usr`.
- A failing phase's halt does not name the phase. The log always says
  "Setup failed"; here the trace's last `Ran` event names the phase.
- `main` reads `config.build.install` (src/main.rs:121), but `ConfigBuild` in
  src/somebuild_config.rs has no `install` field. The modelled `ConfigBuild`
  has all three scripts.

=== FILE: command.dfy ===
/** `command::run`: expand the three macros of a manifest script, trim it, run
    it in the package's working directory and stop the build unless it exits
    with code 0. The shell is an oracle from the expanded script and the
    working directory to the exit code and the captured streams, or to
    nothing when the script cannot be started. */
module Command {
  import opened RustStd
  import opened Log

  /** What `%configure` expands to. */
  const ConfigureInvocation: string := "./configure --prefix=/usr"

  /** What `%make` expands to. */
  const MakeInvocation: string := "make"

  /** What `%make_install` expands to for the working directory `path`: the
      install step with `DESTDIR` set to the directory above it, trimmed. */
  function InstallInvocation(path: string): (r: string)
    ensures r == "make DESTDIR=" + JoinPath(path, "..") + " install"
  {
    var s := "make DESTDIR=" + JoinPath(path, "..") + " install";
    assert s[0] == 'm' && s[|s| - 1] == 'l';
    TrimTrimmed(s);
    Trim(s)
  }

  /** The script `command::run` hands to the shell: `%configure`, then
      `%make_install`, then `%make` replaced everywhere, then trimmed. */
  function Expand(command: string, path: string): (r: string)
    ensures IsTrimmed(r)
  {
    var configured := ReplaceAll(command, "%configure", ConfigureInvocation);
    var installed := ReplaceAll(configured, "%make_install", InstallInvocation(path));
    Trim(ReplaceAll(installed, "%make", MakeInvocation))
  }

  /** What `run_script!` reports once the script has finished. */
  datatype ScriptOutput = ScriptOutput(code: int, output: string, error: string)

  /** `command::run`. `exec(script, workdir)` runs `script` with `workdir` as
      its working directory; `None` is a launch failure, which `unwrap` turns
      into a panic. A non-zero code is fatal and reports the expanded script,
      the code, stderr and stdout. */
  function Run(command: string, path: string, exec: (string, string) -> Option<ScriptOutput>)
    : (r: Result<()>)
    ensures exec(Expand(command, path), path).None? ==> r == Halted(ScriptNotStarted)
    ensures r.Ok? <==> exec(Expand(command, path), path).Some? && exec(Expand(command, path), path).value.code == 0
    ensures exec(Expand(command, path), path).Some? && exec(Expand(command, path), path).value.code != 0 ==>
      var out := exec(Expand(command, path), path).value;
      r == Halted(PhaseFailed(Expand(command, path), out.code, out.error, out.output))
  {
    var script := Expand(command, path);
    match exec(script, path)
    case None => Halted(ScriptNotStarted)
    case Some(out) =>
      if out.code != 0 then Halted(PhaseFailed(script, out.code, out.error, out.output))
      else Ok(())
  }

  /** A failed phase ends the process with status 1 unless the shell could not
      even be started, which panics. */
  lemma RunExitStatus(command: string, path: string, exec: (string, string) -> Option<ScriptOutput>)
    ensures Run(command, path, exec).Halted? ==>
      (Run(command, path, exec).halt.ExitStatus() == 1 <==> exec(Expand(command, path), path).Some?)
  {
  }
}

=== FILE: config.dfy ===
/** The shape of SOMEBUILD.toml once deserialised: the package's general
    description, where its source archive lives and how to check it, and the
    three shell scripts that build it. */
module SomebuildConfig {

  /** `i64`. */
  newtype i64 = x: int | -0x8000_0000_0000_0000 <= x < 0x8000_0000_0000_0000

  datatype Config = Config(general: ConfigGeneral, source: ConfigSource, build: ConfigBuild)

  datatype ConfigGeneral = ConfigGeneral(
    name: string,
    description: string,
    homepage: string,
    licences: seq<string>)

  /** `url` names the source archive; `hash` is the expected BLAKE3 digest in
      its string form. */
  datatype ConfigSource = ConfigSource(version: string, url: string, hash: string, release: i64)

  /** The scripts of the three build phases, run in this order. */
  datatype ConfigBuild = ConfigBuild(
    setup: string,
    build: string,
    install: string,
    options: ConfigBuildOptions)

  datatype ConfigBuildOptions = ConfigBuildOptions(compiler: string, withLto: bool)
}

=== FILE: decompress.dfy ===
/** Archive-name classification and the `decompress` step: the name's suffix
    picks a streaming decoder, the decoded tar stream is unpacked into the
    output directory, and the name comes back with the suffix cut off.
    Unpacking itself is an opaque effect supplied as an oracle. */
module Decompression {
  import opened RustStd
  import opened Log

  /** The four streaming decoders, one per supported archive suffix. */
  datatype Decoder = Zstd | Xz | Gzip | Bz

  function Suffix(d: Decoder): string {
    match d
    case Zstd => ".tar.zst"
    case Xz => ".tar.xz"
    case Gzip => ".tar.gz"
    case Bz => ".tar.bz2"
  }

  /** The if-chain shared by `Download::new` and `decompress`: the first of
      `.tar.zst`, `.tar.xz`, `.tar.gz`, `.tar.bz2` the name ends with,
      compared case-sensitively. */
  function Classify(name: string): (r: Option<Decoder>)
    ensures r.Some? ==> EndsWith(name, Suffix(r.value))
    ensures r.None? <==> forall d :: !EndsWith(name, Suffix(d))
  {
    if EndsWith(name, ".tar.zst") then Some(Zstd)
    else if EndsWith(name, ".tar.xz") then Some(Xz)
    else if EndsWith(name, ".tar.gz") then Some(Gzip)
    else if EndsWith(name, ".tar.bz2") then Some(Bz)
    else None
  }

  /** No supported suffix ends with another one. */
  lemma SuffixesDisjoint(d: Decoder, e: Decoder)
    requires d != e
    ensures !EndsWith(Suffix(d), Suffix(e))
  {
    var sd, se := Suffix(d), Suffix(e);
    assert sd[|sd| - 3..] != se[|se| - 3..];
    EndsWithLastThree(sd, se);
  }

  /** A string that ends with `t` ends with the last three characters of `t`. */
  lemma EndsWithLastThree(s: string, t: string)
    requires |t| >= 3
    ensures EndsWith(s, t) ==> s[|s| - 3..] == t[|t| - 3..]
  {
    if EndsWith(s, t) {
      assert s[|s| - 3..] == s[|s| - |t|..][|t| - 3..];
    }
  }

  /** A name ending in a supported suffix is classified by that suffix, so the
      order of the if-chain never decides the outcome. */
  lemma ClassifyUnique(name: string, d: Decoder)
    requires EndsWith(name, Suffix(d))
    ensures Classify(name) == Some(d)
  {
    var c := Classify(name);
    if c != Some(d) {
      var e := c.value;
      if |Suffix(e)| <= |Suffix(d)| {
        EndsWithNested(name, Suffix(e), Suffix(d));
        SuffixesDisjoint(d, e);
      } else {
        EndsWithNested(name, Suffix(d), Suffix(e));
        SuffixesDisjoint(e, d);
      }
    }
  }

  lemma ClassifyExact(name: string)
    ensures forall d :: EndsWith(name, Suffix(d)) ==> Classify(name) == Some(d)
  {
    forall d | EndsWith(name, Suffix(d)) ensures Classify(name) == Some(d) {
      ClassifyUnique(name, d);
    }
  }

  /** `name` with the suffix of `d` cut off (`split_at` / `truncate`). */
  function StripSuffix(name: string, d: Decoder): (base: string)
    requires EndsWith(name, Suffix(d))
    ensures base + Suffix(d) == name
  {
    name[..|name| - |Suffix(d)|]
  }

  /** What `decompress` did: the decoder it opened, if any, and its result. */
  datatype Decompressed = Decompressed(decoder: Option<Decoder>, result: Result<string>)

  /** `decompress`: trim the name, open the decoder its suffix selects on
      `stream`, unpack (the oracle `unpack` says whether the stream decoded
      by that decoder unpacks), and only then return the trimmed name without its suffix. An unsupported
      name is fatal before any decoder exists; a failed unpack panics. */
  function Decompress(fileName: string, stream: seq<byte>, unpack: (Decoder, seq<byte>) -> bool)
    : (r: Decompressed)
    ensures r.decoder.Some? <==> exists d :: EndsWith(Trim(fileName), Suffix(d))
    ensures forall d :: EndsWith(Trim(fileName), Suffix(d)) ==> r.decoder == Some(d)
    ensures r.decoder.None? ==> r.result == Halted(UnsupportedExtension(Trim(fileName)))
    ensures r.result.Ok? <==> r.decoder.Some? && unpack(r.decoder.value, stream)
    ensures r.decoder.Some? && !unpack(r.decoder.value, stream) ==> r.result == Halted(UnpackFailed)
    ensures r.result.Ok? ==> r.result.value + Suffix(r.decoder.value) == Trim(fileName)
  {
    var name := Trim(fileName);
    ClassifyExact(name);
    match Classify(name)
    case None => Decompressed(None, Halted(UnsupportedExtension(name)))
    case Some(d) =>
      if unpack(d, stream) then Decompressed(Some(d), Ok(StripSuffix(name, d)))
      else Decompressed(Some(d), Halted(UnpackFailed))
  }

  /** Each suffix selects its own decoder and is the one cut off. */
  lemma DecompressSelectsDecoder(base: string, d: Decoder, stream: seq<byte>,
                                 unpack: (Decoder, seq<byte>) -> bool)
    requires IsTrimmed(base + Suffix(d))
    ensures Decompress(base + Suffix(d), stream, unpack).decoder == Some(d)
    ensures unpack(d, stream) ==> Decompress(base + Suffix(d), stream, unpack).result == Ok(base)
    ensures !unpack(d, stream) ==> Decompress(base + Suffix(d), stream, unpack).result == Halted(UnpackFailed)
  {
    TrimTrimmed(base + Suffix(d));
    ClassifyUnique(base + Suffix(d), d);
  }

  /** Whitespace around the name never changes what `decompress` does. */
  lemma DecompressIgnoresPadding(lead: string, fileName: string, trail: string, stream: seq<byte>,
                                 unpack: (Decoder, seq<byte>) -> bool)
    requires AllWhitespace(lead) && AllWhitespace(trail)
    ensures Decompress(lead + fileName + trail, stream, unpack) == Decompress(fileName, stream, unpack)
  {
    TrimIgnoresPadding(lead, fileName, trail);
  }

  /** The downloader passes just the extension: the fatal branch is unreachable
      and, once unpacked, the result is the empty string. */
  lemma DecompressExtensionOnly(d: Decoder, stream: seq<byte>, unpack: (Decoder, seq<byte>) -> bool)
    ensures Decompress(Suffix(d), stream, unpack).decoder == Some(d)
    ensures Decompress(Suffix(d), stream, unpack).result in {Ok(""), Halted(UnpackFailed)}
  {
    assert Suffix(d) == [] + Suffix(d);
    DecompressSelectsDecoder([], d, stream, unpack);
  }
}

=== FILE: downloader.dfy ===
/** `Download::new` and `Download::download`: name the archive after the last
    segment of the source URL, stream the response body through the progress
    clamp and the hasher into `decompress`, then check the digest.
    The network, BLAKE3 and the unpacker are parameters: the response is an
    optional content length plus a finite sequence of chunks, the digest is
    an uninterpreted function of the bytes hashed, and the unpacker says
    whether the decoded stream unpacks. */
module Downloader {
  import opened RustStd
  import opened Log
  import opened Decompression
  import opened Trace

  /** The three names `Download::new` derives from the archive name. */
  datatype Names = Names(fullFileName: string, fileName: string, extension: string)

  /** What `Download::new` guarantees of the names it builds. */
  predicate ValidNames(n: Names) {
    && n.fullFileName == n.fileName + n.extension
    && exists d :: n.extension == Suffix(d)
  }

  /** `Download::new`. `segment` is the last path segment of the source URL,
      or `None` when `Url::parse` or `path_segments` fails, which the chained
      `unwrap`s turn into a panic. The trimmed segment is split at the first
      matching suffix; a name with none is fatal. */
  function NewDownload(segment: Option<string>): (r: Result<Names>)
    ensures segment.None? ==> r == Halted(UrlUnusable)
    ensures segment.Some? ==> (r.Ok? <==> exists d :: EndsWith(Trim(segment.value), Suffix(d)))
    ensures segment.Some? && r.Halted? ==> r.halt == UnsupportedExtension(Trim(segment.value))
    ensures r.Ok? ==> ValidNames(r.value) && r.value.fullFileName == Trim(segment.value)
    ensures r.Ok? ==> forall d :: EndsWith(Trim(segment.value), Suffix(d)) ==> r.value.extension == Suffix(d)
  {
    match segment
    case None => Halted(UrlUnusable)
    case Some(s) =>
      var name := Trim(s);
      ClassifyExact(name);
      match Classify(name)
      case None => Halted(UnsupportedExtension(name))
      case Some(d) => Ok(Names(name, StripSuffix(name, d), Suffix(d)))
  }

  /** A segment whose trim ends in a supported suffix is split at that suffix. */
  lemma NewDownloadTrimmed(segment: string, name: string, d: Decoder)
    requires Trim(segment) == name && EndsWith(name, Suffix(d))
    ensures NewDownload(Some(segment)) == Ok(Names(name, StripSuffix(name, d), Suffix(d)))
  {
    ClassifyUnique(name, d);
  }

  /** Every supported suffix starts with a dot and does not end in whitespace. */
  lemma SuffixShape(d: Decoder)
    ensures |Suffix(d)| > 0 && Suffix(d)[0] == '.' && !IsWhitespace(Suffix(d)[|Suffix(d)| - 1])
  {
  }

  /** Appending a suffix that neither starts nor ends with whitespace to a
      base name that does not start with whitespace gives a trimmed name that
      ends in the suffix and has the base in front of it. */
  lemma Appended(base: string, sfx: string)
    requires |sfx| > 0 && !IsWhitespace(sfx[0]) && !IsWhitespace(sfx[|sfx| - 1])
    requires base == [] || !IsWhitespace(base[0])
    ensures IsTrimmed(base + sfx) && EndsWith(base + sfx, sfx)
    ensures (base + sfx)[..|base + sfx| - |sfx|] == base
  {
    var name := base + sfx;
    assert name[0] == (if base == [] then sfx[0] else base[0]);
    assert name[|name| - 1] == sfx[|sfx| - 1];
    assert name[|base|..] == sfx && name[..|base|] == base;
  }

  /** Appending a supported suffix to a base name that does not start with
      whitespace gives a trimmed name that splits back into the two. */
  lemma SuffixedName(base: string, d: Decoder)
    requires base == [] || !IsWhitespace(base[0])
    ensures IsTrimmed(base + Suffix(d)) && EndsWith(base + Suffix(d), Suffix(d))
    ensures StripSuffix(base + Suffix(d), d) == base
  {
    SuffixShape(d);
    Appended(base, Suffix(d));
  }

  /** Exactly one suffix is cut off, whatever the base name ends with, and
      whitespace around the segment plays no part. */
  lemma NewDownloadSplit(lead: string, base: string, d: Decoder, trail: string)
    requires AllWhitespace(lead) && AllWhitespace(trail)
    requires base == [] || !IsWhitespace(base[0])
    ensures NewDownload(Some(lead + (base + Suffix(d)) + trail))
         == Ok(Names(base + Suffix(d), base, Suffix(d)))
  {
    var name := base + Suffix(d);
    SuffixedName(base, d);
    TrimIgnoresPadding(lead, name, trail);
    TrimTrimmed(name);
    NewDownloadTrimmed(lead + name + trail, name, d);
  }

  /** `x.tar.gz.tar.xz` names the base `x.tar.gz` with extension `.tar.xz`. */
  lemma NewDownloadStripsOneSuffix()
    ensures NewDownload(Some("x.tar.gz.tar.xz")) == Ok(Names("x.tar.gz.tar.xz", "x.tar.gz", ".tar.xz"))
  {
    var base, name := "x.tar.gz", "x.tar.gz.tar.xz";
    assert base + Suffix(Xz) == name;
    assert [] + name + [] == name;
    NewDownloadSplit([], base, Xz, []);
  }

  /* ------------------------------------------------------------ streaming */

  function Min(a: nat, b: nat): nat {
    if a < b then a else b
  }

  /** All chunks, concatenated in stream order. */
  function Flatten(chunks: seq<seq<byte>>): seq<byte> {
    if chunks == [] then [] else chunks[0] + Flatten(chunks[1..])
  }

  /** Bytes in the first `n` chunks. */
  function Sent(chunks: seq<seq<byte>>, n: nat): nat
    requires n <= |chunks|
  {
    if n == 0 then 0 else Sent(chunks, n - 1) + |chunks[n - 1]|
  }

  /** Counting from the front: the first chunk, then `n - 1` more. */
  lemma {:induction false} SentTail(chunks: seq<seq<byte>>, n: nat)
    requires 0 < n <= |chunks|
    ensures Sent(chunks, n) == |chunks[0]| + Sent(chunks[1..], n - 1)
    decreases n
  {
    if n > 1 {
      SentTail(chunks, n - 1);
      assert chunks[1..][n - 2] == chunks[n - 1];
    }
  }

  lemma {:induction false} SentMonotone(chunks: seq<seq<byte>>, m: nat, n: nat)
    requires m <= n <= |chunks|
    ensures Sent(chunks, m) <= Sent(chunks, n)
    decreases n
  {
    if m < n {
      SentMonotone(chunks, m, n - 1);
    }
  }

  lemma FlattenLength(chunks: seq<seq<byte>>)
    requires chunks != []
    ensures |Flatten(chunks)| == |chunks[0]| + |Flatten(chunks[1..])|
  {
  }

  /** All chunks together hold exactly the bytes of the flattened body. */
  lemma {:induction false} SentAll(chunks: seq<seq<byte>>)
    ensures Sent(chunks, |chunks|) == |Flatten(chunks)|
    decreases |chunks|
  {
    if chunks != [] {
      SentTail(chunks, |chunks|);
      SentAll(chunks[1..]);
      FlattenLength(chunks);
    }
  }

  /** The two variables the per-chunk `inspect` closures update: the progress
      position `downloaded` and the bytes fed to the BLAKE3 hasher so far. */
  datatype Transfer = Transfer(downloaded: nat, hashed: seq<byte>)

  /** One chunk through both closures, in their order: move the position to
      `min(downloaded + len, total_size)`, then feed the chunk to the hasher. */
  function Inspect(t: Transfer, chunk: seq<byte>, total: nat): (r: Transfer)
    ensures r.downloaded <= total && r.downloaded <= t.downloaded + |chunk|
    ensures r.downloaded == total || r.downloaded == t.downloaded + |chunk|
    ensures |r.hashed| == |t.hashed| + |chunk|
    ensures r.hashed[..|t.hashed|] == t.hashed && r.hashed[|t.hashed|..] == chunk
  {
    Transfer(Min(t.downloaded + |chunk|, total), t.hashed + chunk)
  }

  /** The positions shown after each chunk, and the state once the stream ends. */
  datatype Drained = Drained(positions: seq<nat>, final: Transfer)

  /** The stream fold: every chunk goes through `Inspect`, in stream order. */
  function Drain(t: Transfer, chunks: seq<seq<byte>>, total: nat): (r: Drained)
    ensures |r.positions| == |chunks|
    ensures forall i :: 0 <= i < |r.positions| ==> r.positions[i] <= total
    decreases |chunks|
  {
    if chunks == [] then Drained([], t)
    else
      var next := Inspect(t, chunks[0], total);
      var rest := Drain(next, chunks[1..], total);
      Drained([next.downloaded] + rest.positions, rest.final)
  }

  /** Clamping twice to the same total is clamping once. */
  lemma MinShift(a: nat, b: nat, total: nat)
    ensures Min(Min(a, total) + b, total) == Min(a + b, total)
  {
  }

  /** After chunk `i` the position is the clamped count of bytes in the first
      `i + 1` chunks. */
  lemma {:induction false} DrainPosition(t: Transfer, chunks: seq<seq<byte>>, total: nat, i: nat)
    requires i < |chunks|
    ensures i < |Drain(t, chunks, total).positions|
    ensures Drain(t, chunks, total).positions[i] == Min(t.downloaded + Sent(chunks, i + 1), total)
    decreases i
  {
    var next := Inspect(t, chunks[0], total);
    if i > 0 {
      DrainPosition(next, chunks[1..], total, i - 1);
      SentTail(chunks, i + 1);
      MinShift(t.downloaded + |chunks[0]|, Sent(chunks[1..], i), total);
    }
  }

  /** One position per chunk, and the hasher is fed exactly the concatenation
      of the chunks. */
  lemma {:induction false} DrainFeedsHasher(t: Transfer, chunks: seq<seq<byte>>, total: nat)
    ensures |Drain(t, chunks, total).positions| == |chunks|
    ensures Drain(t, chunks, total).final.hashed == t.hashed + Flatten(chunks)
    decreases |chunks|
  {
    if chunks == [] {
      assert t.hashed + [] == t.hashed;
    } else {
      DrainFeedsHasher(Inspect(t, chunks[0], total), chunks[1..], total);
      assert t.hashed + Flatten(chunks) == t.hashed + chunks[0] + Flatten(chunks[1..]);
    }
  }

  /** The stream fold in closed form: positions and hasher feed. */
  lemma DrainClosedForm(t: Transfer, chunks: seq<seq<byte>>, total: nat)
    ensures |Drain(t, chunks, total).positions| == |chunks|
    ensures forall i :: 0 <= i < |chunks| ==>
      Drain(t, chunks, total).positions[i] == Min(t.downloaded + Sent(chunks, i + 1), total)
    ensures Drain(t, chunks, total).final.hashed == t.hashed + Flatten(chunks)
  {
    DrainFeedsHasher(t, chunks, total);
    forall i | 0 <= i < |chunks|
      ensures Drain(t, chunks, total).positions[i] == Min(t.downloaded + Sent(chunks, i + 1), total)
    {
      DrainPosition(t, chunks, total, i);
    }
  }

  /** The download bar as the stream runs: it starts from 0, never moves back,
      never passes the reported total, stays at 0 when no content length was
      reported, and ends at the smaller of the total and the body's size. */
  lemma ProgressBounds(chunks: seq<seq<byte>>, total: nat)
    ensures var ps := Drain(Transfer(0, []), chunks, total).positions;
      && |ps| == |chunks|
      && (forall i :: 0 <= i < |ps| ==> ps[i] <= total)
      && (forall i, j :: 0 <= i <= j < |ps| ==> ps[i] <= ps[j])
      && (total == 0 ==> forall i :: 0 <= i < |ps| ==> ps[i] == 0)
      && (|ps| > 0 ==> ps[|ps| - 1] == Min(|Flatten(chunks)|, total))
  {
    var ps := Drain(Transfer(0, []), chunks, total).positions;
    DrainClosedForm(Transfer(0, []), chunks, total);
    forall i, j | 0 <= i <= j < |ps| ensures ps[i] <= ps[j] {
      SentMonotone(chunks, i + 1, j + 1);
    }
    SentAll(chunks);
  }

  /** Chunks of 10, 20 and 5 bytes against a reported total of 35 move the bar
      to 10, 30 and 35; against a total of 30 the last chunk is clamped. */
  lemma ProgressExample(chunks: seq<seq<byte>>)
    requires |chunks| == 3 && |chunks[0]| == 10 && |chunks[1]| == 20 && |chunks[2]| == 5
    ensures Drain(Transfer(0, []), chunks, 35).positions == [10, 30, 35]
    ensures Drain(Transfer(0, []), chunks, 30).positions == [10, 30, 30]
  {
    DrainClosedForm(Transfer(0, []), chunks, 35);
    DrainClosedForm(Transfer(0, []), chunks, 30);
    assert Sent(chunks, 1) == 10;
    assert Sent(chunks, 2) == Sent(chunks, 1) + |chunks[1]| == 30;
    assert Sent(chunks, 3) == Sent(chunks, 2) + |chunks[2]| == 35;
  }

  /* ------------------------------------------------------------- download */

  /** The HTTP response: the reported content length, if any, and the body. */
  datatype Response = Response(contentLength: Option<nat>, chunks: seq<seq<byte>>) {
    /** `content_length().unwrap_or(0)`: 0 stands for an unknown length. */
    function Total(): nat {
      contentLength.UnwrapOr(0)
    }
  }

  /** The body run through the `inspect` closures from `downloaded = 0` and a
      fresh hasher. */
  function Stream(resp: Response): (r: Drained)
    ensures |r.positions| == |resp.chunks|
    ensures forall i :: 0 <= i < |resp.chunks| ==>
      r.positions[i] == Min(Sent(resp.chunks, i + 1), resp.Total())
    ensures r.final.hashed == Flatten(resp.chunks)
  {
    DrainClosedForm(Transfer(0, []), resp.chunks, resp.Total());
    Drain(Transfer(0, []), resp.chunks, resp.Total())
  }

  function ProgressEvents(positions: seq<nat>): (r: seq<Event>)
    ensures |r| == |positions|
    ensures forall i :: 0 <= i < |r| ==> r[i] == SetPosition(positions[i])
    ensures forall e :: e in r ==> e.SetPosition?
  {
    seq(|positions|, i requires 0 <= i < |positions| => SetPosition(positions[i]))
  }

  /** The request, then one bar update per chunk, each to the clamped count of
      bytes received so far. */
  function Received(url: string, resp: Response): (r: seq<Event>)
    ensures |r| == |resp.chunks| + 1 && r[0] == Requested(url)
    ensures forall i :: 1 <= i <= |resp.chunks| ==>
      r[i] == SetPosition(Min(Sent(resp.chunks, i), resp.Total()))
  {
    var positions := Stream(resp).positions;
    var r := [Requested(url)] + ProgressEvents(positions);
    assert forall i :: 1 <= i <= |resp.chunks| ==> r[i] == SetPosition(positions[i - 1]);
    r
  }

  /** The digest check that follows a successful unpack: a mismatch is fatal
      and reports the URL and both digests. */
  function Verify(url: string, expected: string, found: string): (r: Traced<()>)
    ensures r.events == [Compared(expected, found)]
    ensures r.result.Ok? <==> found == expected
    ensures r.result.Halted? ==> r.result.halt == HashMismatch(url, expected, found)
  {
    var events := [Compared(expected, found)];
    if found == expected then Traced(events, Ok(()))
    else Traced(events, Halted(HashMismatch(url, expected, found)))
  }

  /** `decompress` on the bytes received, then, once it has returned, the
      digest check. */
  function Unpack(extension: string, bytes: seq<byte>, url: string, expected: string,
                  unpack: (Decoder, seq<byte>) -> bool, digest: seq<byte> -> string): (r: Traced<()>)
    ensures r.events == [] || (|r.events| == 2 && r.events[0].Unpacked? && r.events[1].Compared?)
    ensures r.result.Ok? ==> r.events != [] && r.events[1] == Compared(expected, expected)
  {
    var ex := Decompress(extension, bytes, unpack);
    match ex.result
    case Halted(h) => Traced([], Halted(h))
    case Ok(_) =>
      var checked := Verify(url, expected, digest(bytes));
      Traced([Unpacked(ex.decoder.value)] + checked.events, checked.result)
  }

  /** Neither the request nor the unpacking belongs to a build phase. */
  lemma DownloadEventsJoin(received: seq<Event>, unpacked: seq<Event>)
    requires |received| > 0 && received[0].Requested?
    requires forall i :: 1 <= i < |received| ==> received[i].SetPosition?
    requires unpacked == [] || (|unpacked| == 2 && unpacked[0].Unpacked? && unpacked[1].Compared?)
    ensures forall e :: e in received + unpacked ==> !IsBuildEvent(e)
    ensures forall i :: 0 <= i < |received + unpacked| && (received + unpacked)[i].Compared? ==>
      i == |received + unpacked| - 1 && i > 0 && (received + unpacked)[i - 1].Unpacked?
  {
  }

  /** `Download::download`. `response` is what `reqwest::get` yields (`None`:
      the request failed and `unwrap` panics); `unpack` says whether the stream
      decoded by a decoder unpacks; `digest` is BLAKE3 finalised to its string
      form. The hasher and the decoder see the same bytes, and the digest is
      compared only once `decompress` has returned. */
  function Download(names: Names, url: string, expected: string, response: Option<Response>,
                    unpack: (Decoder, seq<byte>) -> bool, digest: seq<byte> -> string): (r: Traced<()>)
    ensures |r.events| > 0 && r.events[0] == Requested(url)
    ensures forall e :: e in r.events ==> !IsBuildEvent(e)
    ensures forall i :: 0 <= i < |r.events| && r.events[i].Compared? ==>
      i == |r.events| - 1 && i > 0 && r.events[i - 1].Unpacked?
    ensures r.result.Ok? ==> r.events[|r.events| - 1] == Compared(expected, expected)
  {
    match response
    case None => Traced([Requested(url)], Halted(RequestFailed))
    case Some(resp) =>
      var received := Received(url, resp);
      var unpacked := Unpack(names.extension, Stream(resp).final.hashed, url, expected, unpack, digest);
      DownloadEventsJoin(received, unpacked.events);
      Traced(received + unpacked.events, unpacked.result)
  }

  /** After the request, one bar update per chunk, each to the clamped count of
      bytes received so far. */
  lemma DownloadProgress(names: Names, url: string, expected: string, resp: Response,
                         unpack: (Decoder, seq<byte>) -> bool, digest: seq<byte> -> string)
    ensures var r := Download(names, url, expected, Some(resp), unpack, digest);
      && |r.events| > |resp.chunks|
      && forall i :: 1 <= i <= |resp.chunks| ==>
           r.events[i] == SetPosition(Min(Sent(resp.chunks, i), resp.Total()))
  {
    var r := Download(names, url, expected, Some(resp), unpack, digest);
    var received := Received(url, resp);
    assert r.events[..|received|] == received;
    forall i | 1 <= i <= |resp.chunks|
      ensures r.events[i] == SetPosition(Min(Sent(resp.chunks, i), resp.Total()))
    {
      assert r.events[i] == r.events[..|received|][i];
    }
  }

  /** Download succeeds exactly when the request succeeds, the extension names
      a decoder, the bytes received unpack with it and their digest is the
      expected one; a mismatch is reported with both digests. */
  lemma DownloadOutcome(names: Names, url: string, expected: string, response: Option<Response>,
                        unpack: (Decoder, seq<byte>) -> bool, digest: seq<byte> -> string)
    ensures var r := Download(names, url, expected, response, unpack, digest);
      && (response.None? ==> r.result == Halted(RequestFailed))
      && (response.Some? ==>
            var bytes := Flatten(response.value.chunks);
            var c := Classify(Trim(names.extension));
            && (r.result.Ok? <==> c.Some? && unpack(c.value, bytes) && digest(bytes) == expected)
            && (c.None? ==> r.result == Halted(UnsupportedExtension(Trim(names.extension))))
            && (c.Some? && !unpack(c.value, bytes) ==> r.result == Halted(UnpackFailed))
            && (c.Some? && unpack(c.value, bytes) && digest(bytes) != expected ==>
                  r.result == Halted(HashMismatch(url, expected, digest(bytes)))))
  {
    if response.Some? {
      var bytes := Flatten(response.value.chunks);
      var ex := Decompress(names.extension, bytes, unpack);
      var c := Classify(Trim(names.extension));
      assert ex.decoder == c by { ClassifyExact(Trim(names.extension)); }
    }
  }

  /** On names built by `Download::new` the unsupported-extension branch of
      `decompress` is unreachable: the archive is unpacked with the decoder of
      its own suffix, and the download succeeds exactly when unpacking does and
      the digest matches. */
  lemma DownloadUsesOwnDecoder(names: Names, d: Decoder, url: string, expected: string, resp: Response,
                               unpack: (Decoder, seq<byte>) -> bool, digest: seq<byte> -> string)
    requires ValidNames(names) && names.extension == Suffix(d)
    ensures var r := Download(names, url, expected, Some(resp), unpack, digest);
      var bytes := Flatten(resp.chunks);
      && (r.result.Ok? <==> unpack(d, bytes) && digest(bytes) == expected)
      && (!unpack(d, bytes) ==> r.result == Halted(UnpackFailed))
      && (unpack(d, bytes) ==> |r.events| >= 2 && r.events[|r.events| - 2] == Unpacked(d))
  {
    var bytes := Flatten(resp.chunks);
    var received := Received(url, resp);
    var u := Unpack(names.extension, bytes, url, expected, unpack, digest);
    UnpackOwnDecoder(d, bytes, url, expected, unpack, digest);
    assert Download(names, url, expected, Some(resp), unpack, digest) == Traced(received + u.events, u.result);
  }

  /** The extension alone selects its decoder: the unpack outcome and the
      digest decide the rest. */
  lemma UnpackOwnDecoder(d: Decoder, bytes: seq<byte>, url: string, expected: string,
                         unpack: (Decoder, seq<byte>) -> bool, digest: seq<byte> -> string)
    ensures var u := Unpack(Suffix(d), bytes, url, expected, unpack, digest);
      && (u.result.Ok? <==> unpack(d, bytes) && digest(bytes) == expected)
      && (!unpack(d, bytes) ==> u.result == Halted(UnpackFailed) && u.events == [])
      && (unpack(d, bytes) ==> u.events == [Unpacked(d), Compared(expected, digest(bytes))])
  {
    DecompressExtensionOnly(d, bytes, unpack);
  }
}

=== FILE: expansion.dfy ===
/** What the macro expansion of `command::run` does to particular scripts:
    plain scripts, each macro on its own, `%make` inside a longer word, the
    working directory rescanned after `%make_install`, and surrounding
    whitespace. Lemmas whose parameter a `requires` pins to one literal (a
    separator, a directory, a script) take it as a parameter so that the
    literal's characters enter the solver's context only inside that lemma. */
module Expansion {
  import opened RustStd
  import opened Command

  /** No character of `s` is the macro sigil. */
  predicate NoSigil(s: string) {
    '%' !in s
  }

  lemma NoSigilConcat(a: string, b: string)
    requires NoSigil(a) && NoSigil(b)
    ensures NoSigil(a + b)
  {
    assert forall c :: c in a + b ==> c in a || c in b;
  }

  /** Joining `..` to a directory adds no sigil. */
  lemma ParentNoSigil(path: string)
    requires NoSigil(path)
    ensures NoSigil(JoinPath(path, ".."))
  {
    if |path| > 0 && path[|path| - 1] != '/' {
      NoSigilConcat(path, "/");
      NoSigilConcat(path + "/", "..");
    } else {
      NoSigilConcat(path, "..");
    }
  }

  /** Every macro starts with the sigil, so a string without one is left alone. */
  lemma ReplaceNoSigil(s: string, p: string, r: string)
    requires |p| > 0 && p[0] == '%' && NoSigil(s)
    ensures ReplaceAll(s, p, r) == s
  {
    ReplaceAllAbsent(s, p, r);
  }

  /** `s` does not start with `p`: they differ at index `k`. */
  lemma PrefixMismatch(s: string, p: string, k: int)
    requires 0 <= k < |s| && k < |p| && s[k] != p[k]
    ensures !(|p| <= |s| && s[..|p|] == p)
  {
    if |p| <= |s| {
      assert s[..|p|][k] == s[k];
    }
  }

  /** A sigil followed by plain text is left alone by every macro it does not
      start. */
  lemma ReplaceLoneSigil(w: string, p: string, r: string)
    requires |p| > 0 && p[0] == '%' && NoSigil(w)
    requires !(|p| <= |w| + 1 && ("%" + w)[..|p|] == p)
    ensures ReplaceAll("%" + w, p, r) == "%" + w
  {
    var s := "%" + w;
    assert s[1..] == w;
    ReplaceNoSigil(w, p, r);
  }

  /** A macro followed by plain text: the macro is replaced, the text kept. */
  lemma ReplaceMacroThenPlain(p: string, w: string, r: string)
    requires |p| > 0 && p[0] == '%' && NoSigil(w)
    ensures ReplaceAll(p + w, p, r) == r + w
  {
    assert (p + w)[..|p|] == p && (p + w)[|p|..] == w;
    ReplaceNoSigil(w, p, r);
  }

  /** A pattern replaced in itself leaves just the replacement. */
  lemma ReplaceWhole(p: string, r: string)
    requires |p| > 0
    ensures ReplaceAll(p, p, r) == r
  {
    assert p[..|p|] == p && p[|p|..] == [];
    assert r + [] == r;
  }

  /** A script without `%` is run as written, only trimmed. */
  lemma ExpandPlain(command: string, path: string)
    requires NoSigil(command)
    ensures Expand(command, path) == Trim(command)
  {
    ReplaceNoSigil(command, "%configure", ConfigureInvocation);
    ReplaceNoSigil(command, "%make_install", InstallInvocation(path));
    ReplaceNoSigil(command, "%make", MakeInvocation);
  }

  /** `Expand` stage by stage. */
  lemma ExpandStages(command: string, path: string, configured: string, installed: string, made: string)
    requires ReplaceAll(command, "%configure", ConfigureInvocation) == configured
    requires ReplaceAll(configured, "%make_install", InstallInvocation(path)) == installed
    requires ReplaceAll(installed, "%make", MakeInvocation) == made
    ensures Expand(command, path) == Trim(made)
  {
  }

  /** `%configure` becomes exactly `./configure --prefix=/usr`, whatever plain
      text follows it: no prefix other than `/usr`, no name or version. */
  lemma ExpandConfigure(command: string, w: string, path: string)
    requires command == "%configure" + w && NoSigil(w)
    ensures Expand(command, path) == Trim("./configure --prefix=/usr" + w)
  {
    ReplaceMacroThenPlain("%configure", w, ConfigureInvocation);
    var configured := ConfigureInvocation + w;
    assert NoSigil(ConfigureInvocation);
    NoSigilConcat(ConfigureInvocation, w);
    ReplaceNoSigil(configured, "%make_install", InstallInvocation(path));
    ReplaceNoSigil(configured, "%make", MakeInvocation);
    ExpandStages(command, path, configured, configured, configured);
  }

  lemma ConfigureInvocationTrimmed()
    ensures Trim(ConfigureInvocation) == ConfigureInvocation
  {
    var s := ConfigureInvocation;
    assert s[0] == '.' && s[|s| - 1] == 'r';
    TrimTrimmed(s);
  }

  /** `%configure` alone. */
  lemma ExpandConfigureAlone(command: string, path: string)
    requires command == "%configure"
    ensures Expand(command, path) == ConfigureInvocation
  {
    assert command == "%configure" + [];
    ExpandConfigure(command, [], path);
    assert ConfigureInvocation + [] == ConfigureInvocation;
    ConfigureInvocationTrimmed();
  }

  /** Plain text on both sides of `x`, the right side starting with
      whitespace, passes through a replacement of a macro. */
  lemma ReplaceBetween(a: string, x: string, b: string, p: string, r: string)
    requires |p| > 0 && p[0] == '%' && Solid(p)
    requires NoSigil(a) && NoSigil(b) && |b| > 0 && IsWhitespace(b[0])
    ensures ReplaceAll(a + x + b, p, r) == a + ReplaceAll(x, p, r) + b
  {
    assert a + x + b == a + (x + b);
    ReplaceAllAfterPlain(a, x + b, p, r);
    ReplaceBeforeSpace(x, b, p, r);
    ReplaceNoSigil(b, p, r);
    assert a + (ReplaceAll(x, p, r) + b) == a + ReplaceAll(x, p, r) + b;
  }

  /** Nothing that starts with a plain character completes an occurrence of a
      whitespace-free pattern across its front. */
  lemma ReplaceBeforeSpace(a: string, b: string, p: string, r: string)
    requires |p| > 0 && Solid(p) && |b| > 0 && IsWhitespace(b[0])
    ensures ReplaceAll(a + b, p, r) == ReplaceAll(a, p, r) + ReplaceAll(b, p, r)
  {
    forall i: nat | i < |a| < i + |p|
      ensures !OccursAt(a + b, p, i)
    {
      if i + |p| <= |a + b| {
        assert (a + b)[i..i + |p|][|a| - i] == b[0];
      }
    }
    ReplaceAllConcat(a, b, p, r);
  }

  /** `%configure` does not match at the start of `%make`. */
  lemma ConfigureSkipsMake(w: string)
    requires NoSigil(w)
    ensures ReplaceAll("%make" + w, "%configure", ConfigureInvocation) == "%make" + w
  {
    var s := "%make" + w;
    assert s == "%" + ("make" + w);
    assert NoSigil("make");
    NoSigilConcat("make", w);
    PrefixMismatch(s, "%configure", 1);
    ReplaceLoneSigil("make" + w, "%configure", ConfigureInvocation);
  }

  /** `%make_install` matches `%make` followed by plain text only when that text
      starts with `_install`. */
  lemma InstallSkipsMake(w: string, r: string)
    requires NoSigil(w) && !(8 <= |w| && w[..8] == "_install")
    ensures ReplaceAll("%make" + w, "%make_install", r) == "%make" + w
  {
    var s := "%make" + w;
    assert s == "%" + ("make" + w);
    assert NoSigil("make");
    NoSigilConcat("make", w);
    if 8 <= |w| {
      var k :| 0 <= k < 8 && w[..8][k] != "_install"[k];
      assert s[5 + k] == w[k];
      PrefixMismatch(s, "%make_install", 5 + k);
    }
    ReplaceLoneSigil("make" + w, "%make_install", r);
  }

  /** The install step with its directory rescanned for `%make`. */
  lemma MakeInInstallInvocation(path: string)
    ensures ReplaceAll(InstallInvocation(path), "%make", MakeInvocation)
         == "make DESTDIR=" + ReplaceAll(JoinPath(path, ".."), "%make", MakeInvocation) + " install"
  {
    MacrosSolid();
    assert NoSigil("make DESTDIR=") && NoSigil(" install");
    ReplaceBetween("make DESTDIR=", JoinPath(path, ".."), " install", "%make", MakeInvocation);
  }

  /** An install step has nothing for the final trim to remove. */
  lemma InstallStepTrimmed(x: string)
    ensures Trim("make DESTDIR=" + x + " install") == "make DESTDIR=" + x + " install"
  {
    var s := "make DESTDIR=" + x + " install";
    assert s[0] == 'm' && s[|s| - 1] == 'l';
    TrimTrimmed(s);
  }

  /** `%configure` does not match at the start of `%make_install` followed by
      plain text. */
  lemma ConfigureSkipsInstallThen(w: string)
    requires NoSigil(w)
    ensures ReplaceAll("%make_install" + w, "%configure", ConfigureInvocation) == "%make_install" + w
  {
    assert NoSigil("_install");
    NoSigilConcat("_install", w);
    assert "%make" + ("_install" + w) == "%make_install" + w;
    ConfigureSkipsMake("_install" + w);
  }

  /** The `%make` pass over an install step followed by plain text rescans only
      the directory. */
  lemma MakeInInstallStepThen(path: string, w: string)
    requires NoSigil(w)
    ensures ReplaceAll(InstallInvocation(path) + w, "%make", MakeInvocation)
         == "make DESTDIR=" + ReplaceAll(JoinPath(path, ".."), "%make", MakeInvocation) + " install" + w
  {
    var j := JoinPath(path, "..");
    var x := ReplaceAll(j, "%make", MakeInvocation);
    var tail := " install" + w;
    assert InstallInvocation(path) + w == "make DESTDIR=" + j + tail;
    assert "make DESTDIR=" + x + tail == "make DESTDIR=" + x + " install" + w;
    InstallTailPlain(w);
    MacrosSolid();
    ReplaceBetween("make DESTDIR=", j, tail, "%make", MakeInvocation);
  }

  /** The end of an install step followed by plain text carries no sigil and
      starts with whitespace. */
  lemma InstallTailPlain(w: string)
    requires NoSigil(w)
    ensures NoSigil(" install" + w) && IsWhitespace((" install" + w)[0])
    ensures NoSigil("make DESTDIR=")
  {
    assert NoSigil(" install");
    NoSigilConcat(" install", w);
  }

  /** `%make_install` becomes the install step with `DESTDIR` one level above
      the working directory, whatever plain text follows it; that directory's
      text is then rescanned for `%make`, since the replacements run one after
      the other. */
  lemma ExpandMakeInstall(command: string, w: string, path: string)
    requires command == "%make_install" + w && NoSigil(w)
    ensures Expand(command, path)
         == Trim("make DESTDIR=" + ReplaceAll(JoinPath(path, ".."), "%make", MakeInvocation) + " install" + w)
  {
    var installed := InstallInvocation(path) + w;
    var made := "make DESTDIR=" + ReplaceAll(JoinPath(path, ".."), "%make", MakeInvocation) + " install" + w;
    ConfigureSkipsInstallThen(w);
    ReplaceMacroThenPlain("%make_install", w, InstallInvocation(path));
    MakeInInstallStepThen(path, w);
    ExpandStages(command, path, command, installed, made);
  }

  /** `%make_install` alone: the install step, with nothing for the trim to
      remove. */
  lemma ExpandMakeInstallAlone(command: string, path: string)
    requires command == "%make_install"
    ensures Expand(command, path)
         == "make DESTDIR=" + ReplaceAll(JoinPath(path, ".."), "%make", MakeInvocation) + " install"
  {
    var x := ReplaceAll(JoinPath(path, ".."), "%make", MakeInvocation);
    assert command == "%make_install" + [];
    ExpandMakeInstall(command, [], path);
    assert "make DESTDIR=" + x + " install" + [] == "make DESTDIR=" + x + " install";
    InstallStepTrimmed(x);
  }

  /** For a working directory without `%`, `%make_install` becomes exactly
      `make DESTDIR=<path>/.. install` (`Path::join` adds the separator). */
  lemma ExpandMakeInstallPlain(command: string, path: string)
    requires command == "%make_install" && NoSigil(path)
    ensures Expand(command, path) == "make DESTDIR=" + JoinPath(path, "..") + " install"
  {
    ExpandMakeInstallAlone(command, path);
    ParentNoSigil(path);
    ReplaceNoSigil(JoinPath(path, ".."), "%make", MakeInvocation);
  }

  /** `%make` inside the working directory's name, and so in `DESTDIR`, is
      rewritten as well. */
  lemma MakeInPath(path: string)
    requires path == "/b/%make"
    ensures ReplaceAll(JoinPath(path, ".."), "%make", MakeInvocation) == "/b/make/.."
  {
    assert JoinPath(path, "..") == "/b/" + ("%make" + "/..");
    ReplaceAllAfterPlain("/b/", "%make" + "/..", "%make", MakeInvocation);
    ReplaceMacroThenPlain("%make", "/..", MakeInvocation);
    assert "/b/" + (MakeInvocation + "/..") == "/b/make/..";
  }

  /** A working directory containing `%make` loses that sigil in `DESTDIR`. */
  lemma ExpandRewritesPath(command: string, path: string)
    requires command == "%make_install" && path == "/b/%make"
    ensures Expand(command, path) == "make DESTDIR=/b/make/.. install"
  {
    assert "make DESTDIR=" + "/b/make/.." + " install" == "make DESTDIR=/b/make/.. install";
    ExpandMakeInstallAlone(command, path);
    MakeInPath(path);
  }

  /** `%make` followed by plain text becomes `make` followed by that text, so
      `%make` is matched also inside a longer word; only `_install` right
      after it selects the install macro instead. */
  lemma ExpandMake(command: string, w: string, path: string)
    requires command == "%make" + w
    requires NoSigil(w) && !(8 <= |w| && w[..8] == "_install")
    ensures Expand(command, path) == Trim(MakeInvocation + w)
  {
    ConfigureSkipsMake(w);
    InstallSkipsMake(w, InstallInvocation(path));
    ReplaceMacroThenPlain("%make", w, MakeInvocation);
    ExpandStages(command, path, command, command, MakeInvocation + w);
  }

  lemma MakeFlagsTrimmed()
    ensures Trim(MakeInvocation + "flags") == MakeInvocation + "flags"
  {
    var s := MakeInvocation + "flags";
    assert s[0] == 'm' && s[|s| - 1] == 's';
    TrimTrimmed(s);
  }

  /** `%makeflags` is not a macro of its own: it becomes `makeflags`. */
  lemma ExpandMakeInWord(command: string, path: string)
    requires command == "%make" + "flags"
    ensures Expand(command, path) == MakeInvocation + "flags"
  {
    ExpandMake(command, "flags", path);
    MakeFlagsTrimmed();
  }

  /** `%make_install` is replaced before `%make`: had `%make` gone first,
      `%make_install` would have become the plain target `make_install`. */
  lemma MakeFirstBreaksInstall()
    ensures ReplaceAll("%make_install", "%make", MakeInvocation) == MakeInvocation + "_install"
  {
    assert "%make_install" == "%make" + "_install";
    ReplaceMacroThenPlain("%make", "_install", MakeInvocation);
  }

  /** The `%configure` pass leaves the separator and `%make_install` alone. */
  lemma ConfigureSkipsSeparatedInstall(sep: string)
    requires sep == " && "
    ensures ReplaceAll(sep + "%make_install", "%configure", ConfigureInvocation) == sep + "%make_install"
  {
    ReplaceAllAfterPlain(sep, "%make_install", "%configure", ConfigureInvocation);
    assert "%make_install" + [] == "%make_install";
    ConfigureSkipsInstallThen([]);
  }

  /** The `%configure` pass over `%configure && %make_install`. */
  lemma ConfigureThenInstallFirstPass(command: string, sep: string)
    requires sep == " && " && command == "%configure" + (sep + "%make_install")
    ensures ReplaceAll(command, "%configure", ConfigureInvocation) == ConfigureInvocation + sep + "%make_install"
  {
    var rest := sep + "%make_install";
    assert Solid("%configure") by { MacrosSolid(); }
    assert |rest| > 0 && IsWhitespace(rest[0]);
    ReplaceBeforeSpace("%configure", rest, "%configure", ConfigureInvocation);
    ReplaceWhole("%configure", ConfigureInvocation);
    ConfigureSkipsSeparatedInstall(sep);
    assert ConfigureInvocation + rest == ConfigureInvocation + sep + "%make_install";
  }

  /** The `%make_install` pass after it. */
  lemma ConfigureThenInstallSecondPass(configured: string, sep: string, path: string)
    requires sep == " && " && configured == ConfigureInvocation + sep + "%make_install"
    ensures ReplaceAll(configured, "%make_install", InstallInvocation(path))
         == ConfigureInvocation + sep + InstallInvocation(path)
  {
    ConfigureStepPlain(sep);
    ReplaceAllAfterPlain(ConfigureInvocation + sep, "%make_install", "%make_install", InstallInvocation(path));
    ReplaceWhole("%make_install", InstallInvocation(path));
  }

  /** The `%make` pass finds nothing left when the directory has no `%`. */
  lemma ConfigureThenInstallThirdPass(installed: string, sep: string, path: string)
    requires sep == " && " && NoSigil(path)
    requires installed == ConfigureInvocation + sep + InstallInvocation(path)
    ensures ReplaceAll(installed, "%make", MakeInvocation) == installed
  {
    ConfigureStepPlain(sep);
    ReplaceAllAfterPlain(ConfigureInvocation + sep, InstallInvocation(path), "%make", MakeInvocation);
    InstallStepKeepsMake(path);
  }

  /** The configure step and the separator carry no sigil. */
  lemma ConfigureStepPlain(sep: string)
    requires sep == " && "
    ensures '%' !in ConfigureInvocation + sep
  {
  }

  /** For a directory without `%`, the `%make` pass leaves the install step alone. */
  lemma InstallStepKeepsMake(path: string)
    requires NoSigil(path)
    ensures ReplaceAll(InstallInvocation(path), "%make", MakeInvocation) == InstallInvocation(path)
  {
    MakeInInstallInvocation(path);
    ParentNoSigil(path);
    ReplaceNoSigil(JoinPath(path, ".."), "%make", MakeInvocation);
  }

  /** Two steps joined by ` && ` have nothing for the final trim to remove. */
  lemma JoinedStepsTrimmed(sep: string, path: string)
    requires sep == " && "
    ensures var s := ConfigureInvocation + sep + InstallInvocation(path); Trim(s) == s
  {
    var s := ConfigureInvocation + sep + InstallInvocation(path);
    var install := InstallInvocation(path);
    assert install[|install| - 1] == 'l';
    assert s[0] == '.' && s[|s| - 1] == install[|install| - 1];
    TrimTrimmed(s);
  }

  /** `%configure && %make_install` in a directory without `%` becomes the
      configure step followed by the install step
      `make DESTDIR=<path>/.. install`, with no macro left. */
  lemma ExpandConfigureThenInstall(command: string, path: string)
    requires command == "%configure" + (" && " + "%make_install") && NoSigil(path)
    ensures Expand(command, path) == ConfigureInvocation + " && " + InstallInvocation(path)
  {
    var sep := " && ";
    ConfigureThenInstallFirstPass(command, sep);
    var configured := ConfigureInvocation + sep + "%make_install";
    ConfigureThenInstallSecondPass(configured, sep, path);
    var installed := ConfigureInvocation + sep + InstallInvocation(path);
    ConfigureThenInstallThirdPass(installed, sep, path);
    ExpandStages(command, path, configured, installed, installed);
    JoinedStepsTrimmed(sep, path);
  }

  /** No macro contains whitespace, so whitespace next to a macro never
      completes an occurrence of it. */
  predicate Solid(p: string) {
    forall k :: 0 <= k < |p| ==> !IsWhitespace(p[k])
  }

  lemma MacrosSolid()
    ensures Solid("%configure") && Solid("%make_install") && Solid("%make")
  {
  }

  /** Whitespace around a string passes through a replacement. */
  lemma ReplacePadding(lead: string, s: string, trail: string, p: string, r: string)
    requires |p| > 0 && Solid(p) && AllWhitespace(lead) && AllWhitespace(trail)
    ensures ReplaceAll(lead + s + trail, p, r) == lead + ReplaceAll(s, p, r) + trail
  {
    assert lead + s + trail == lead + (s + trail);
    ReplaceAllAfterPlain(lead, s + trail, p, r);
    if |trail| > 0 {
      ReplaceBeforeSpace(s, trail, p, r);
      ReplaceAllAbsent(trail, p, r);
    } else {
      assert s + trail == s;
    }
    assert lead + (ReplaceAll(s, p, r) + trail) == lead + ReplaceAll(s, p, r) + trail;
  }

  /** Whitespace around a manifest script never changes the script run. */
  lemma ExpandIgnoresPadding(lead: string, command: string, trail: string, path: string)
    requires AllWhitespace(lead) && AllWhitespace(trail)
    ensures Expand(lead + command + trail, path) == Expand(command, path)
  {
    var install := InstallInvocation(path);
    MacrosSolid();
    var c := ReplaceAll(command, "%configure", ConfigureInvocation);
    var i := ReplaceAll(c, "%make_install", install);
    var m := ReplaceAll(i, "%make", MakeInvocation);
    ReplacePadding(lead, command, trail, "%configure", ConfigureInvocation);
    ReplacePadding(lead, c, trail, "%make_install", install);
    ReplacePadding(lead, i, trail, "%make", MakeInvocation);
    ExpandStages(lead + command + trail, path, lead + c + trail, lead + i + trail, lead + m + trail);
    TrimIgnoresPadding(lead, m, trail);
    ExpandStages(command, path, c, i, m);
  }
}

=== FILE: log.dfy ===
/** How the builder stops. Every error is terminal: the `fatal!` macro logs and
    exits with status 1, while a failed `expect` or `unwrap` panics, which ends
    the process with Rust's panic status 101. Each variant of `Halt` names one
    site that can stop the run and carries what that site reports. */
module Log {

  datatype Halt =
      /** `fs::canonicalize` of the input directory failed (fatal). */
    | InputPathUnreadable(error: string)
      /** `fs::canonicalize` of the output directory failed (fatal). */
    | OutputPathUnreadable(error: string)
      /** The input path is a file, not a directory (fatal). */
    | InputIsFile
      /** The output path is a file, not a directory (fatal). */
    | OutputIsFile
      /** SOMEBUILD.toml could not be opened, read or parsed (panic). */
    | ManifestUnreadable
      /** The source URL does not parse or has no path segments (panic). */
    | UrlUnusable
      /** The archive name ends in no supported suffix (fatal). */
    | UnsupportedExtension(name: string)
      /** The HTTP request failed (panic). */
    | RequestFailed
      /** Decoding or unpacking the archive failed (panic). */
    | UnpackFailed
      /** The digest of the downloaded bytes differs from the manifest's (fatal). */
    | HashMismatch(url: string, expected: string, found: string)
      /** The shell script could not be started (panic). */
    | ScriptNotStarted
      /** A phase's script exited with a non-zero code (fatal). */
    | PhaseFailed(command: string, code: int, error: string, output: string)
  {
    /** Raised by `expect`/`unwrap` rather than by `fatal!`. */
    predicate IsPanic() {
      ManifestUnreadable? || UrlUnusable? || RequestFailed? || UnpackFailed? || ScriptNotStarted?
    }

    /** The process exit status this halt ends with. */
    function ExitStatus(): (status: int)
      ensures status != 0
      ensures status == 1 <==> !IsPanic()
    {
      if IsPanic() then 101 else 1
    }
  }

  /** A step that either produces a value or stops the process. */
  datatype Result<+T> = Ok(value: T) | Halted(halt: Halt)
}

=== FILE: main.dfy ===
/** `main`: resolve the input and output directories, read SOMEBUILD.toml,
    download and verify the source archive, then run the setup, build and
    install scripts one after the other in the unpacked source directory,
    moving a build bar of length 3 once per finished phase. Every failure
    ends the process on the spot. The file system, the manifest parser, URL
    parsing, the network, the unpacker, BLAKE3 and the shell are oracles
    gathered in a `World`. */
module Somebuild {
  import opened RustStd
  import opened Log
  import opened Decompression
  import opened Trace
  import opened Downloader
  import opened Command
  import opened SomebuildConfig

  /** The build bar's length: one unit per phase. */
  const BuildBarLength: nat := 3

  /** The manifest's file name inside the input directory. */
  const ManifestName: string := "SOMEBUILD.toml"

  /** What `fs::canonicalize` yields for a path: the resolved path and whether
      it names a regular file, or the error. */
  datatype Canonical = Resolved(path: string, isFile: bool) | Unresolved(error: string)

  /** Everything `main` learns from outside the process. */
  datatype World = World(
    canonicalize: string -> Canonical,
    /** Open, read and parse the manifest at a path; `None` on any failure. */
    readManifest: string -> Option<Config>,
    /** The last path segment of a URL; `None` when it does not parse or
        cannot be a base. */
    lastSegment: string -> Option<string>,
    fetch: string -> Option<Response>,
    unpack: (Decoder, seq<byte>) -> bool,
    digest: seq<byte> -> string,
    exec: (string, string) -> Option<ScriptOutput>)

  /** One build phase and its manifest script. */
  datatype Step = Step(phase: Phase, command: string)

  /** The phases `main` runs, in its order. */
  function Steps(build: ConfigBuild): (r: seq<Step>)
    ensures |r| == BuildBarLength
    ensures r[0] == Step(Setup, build.setup) && r[1] == Step(Build, build.build)
    ensures r[2] == Step(Install, build.install)
  {
    [Step(Setup, build.setup), Step(Build, build.build), Step(Install, build.install)]
  }

  function StepPhases(steps: seq<Step>): (r: seq<Phase>)
    ensures |r| == |steps|
    ensures forall i :: 0 <= i < |steps| ==> r[i] == steps[i].phase
  {
    if steps == [] then [] else [steps[0].phase] + StepPhases(steps[1..])
  }

  /** `run(command)` is what `command::run` does with a manifest script in
      the phases' working directory. */
  type PhaseRunner = string -> Result<()>

  /** The event of running a phase's script. */
  function Started(step: Step, workdir: string): Event {
    Ran(step.phase, step.command, workdir)
  }

  /** The phases, each through `run` and each followed by one step of the
      build bar; the first failure ends the run. */
  function RunPhases(steps: seq<Step>, workdir: string, run: PhaseRunner): (r: Traced<()>)
    ensures r.events == [] <==> steps == []
    ensures |r.events| <= 2 * |steps|
    ensures r.result.Ok? ==> |r.events| == 2 * |steps|
    decreases |steps|
  {
    if steps == [] then Traced([], Ok(()))
    else
      match run(steps[0].command)
      case Halted(h) => Traced([Started(steps[0], workdir)], Halted(h))
      case Ok(_) =>
        var rest := RunPhases(steps[1..], workdir, run);
        Traced([Started(steps[0], workdir), Advanced] + rest.events, rest.result)
  }

  /** Phases and bar steps of a finished phase followed by `rest`. */
  lemma FinishedThen(ran: Event, rest: seq<Event>)
    requires ran.Ran?
    ensures Phases([ran, Advanced] + rest) == [ran.phase] + Phases(rest)
    ensures Advances([ran, Advanced] + rest) == 1 + Advances(rest)
  {
    PhasesConcat([ran, Advanced], rest);
    AdvancesConcat([ran, Advanced], rest);
  }

  /** The bar moves once per finished phase: on success every phase ran and
      finished; on failure the last phase that ran is the one that failed. */
  lemma {:induction false} RunPhasesCount(steps: seq<Step>, workdir: string, run: PhaseRunner)
    ensures var r := RunPhases(steps, workdir, run);
      && (r.result.Ok? ==> |Phases(r.events)| == |steps| && Advances(r.events) == |steps|)
      && (r.result.Halted? ==> 0 < |Phases(r.events)| <= |steps| && Advances(r.events) == |Phases(r.events)| - 1)
    decreases |steps|
  {
    if steps != [] && run(steps[0].command).Ok? {
      RunPhasesCount(steps[1..], workdir, run);
      FinishedThen(Started(steps[0], workdir), RunPhases(steps[1..], workdir, run).events);
    }
  }

  /** The phases run are the given ones, in the given order, up to the first
      failure. */
  lemma {:induction false} RunPhasesOrder(steps: seq<Step>, workdir: string, run: PhaseRunner)
    ensures Phases(RunPhases(steps, workdir, run).events) <= StepPhases(steps)
    decreases |steps|
  {
    if steps != [] {
      var ran := Started(steps[0], workdir);
      if run(steps[0].command).Ok? {
        RunPhasesOrder(steps[1..], workdir, run);
        FinishedThen(ran, RunPhases(steps[1..], workdir, run).events);
      } else {
        assert Phases([ran]) == [ran.phase];
      }
    }
  }

  /** The run succeeds exactly when every phase succeeds. */
  lemma {:induction false} RunPhasesSucceeds(steps: seq<Step>, workdir: string, run: PhaseRunner)
    ensures RunPhases(steps, workdir, run).result.Ok?
        <==> forall j :: 0 <= j < |steps| ==> run(steps[j].command).Ok?
    decreases |steps|
  {
    if steps != [] && run(steps[0].command).Ok? {
      RunPhasesSucceeds(steps[1..], workdir, run);
      assert forall j :: 0 < j < |steps| ==> steps[j] == steps[1..][j - 1];
    }
  }

  /** Fail-fast: a failed run stops with the failure of a phase all of whose
      predecessors succeeded, and that phase's script is the last thing run. */
  lemma {:induction false} RunPhasesFailFast(steps: seq<Step>, workdir: string, run: PhaseRunner)
    ensures var r := RunPhases(steps, workdir, run);
      r.result.Halted? ==>
        exists j :: && 0 <= j < |steps|
                    && r.result == run(steps[j].command)
                    && r.events[|r.events| - 1] == Started(steps[j], workdir)
                    && forall k :: 0 <= k < j ==> run(steps[k].command).Ok?
    decreases |steps|
  {
    if steps != [] {
      var r := RunPhases(steps, workdir, run);
      if run(steps[0].command).Ok? {
        var rest := RunPhases(steps[1..], workdir, run);
        RunPhasesFailFast(steps[1..], workdir, run);
        if rest.result.Halted? {
          var j :| && 0 <= j < |steps| - 1
                   && rest.result == run(steps[1..][j].command)
                   && rest.events[|rest.events| - 1] == Started(steps[1..][j], workdir)
                   && forall k :: 0 <= k < j ==> run(steps[1..][k].command).Ok?;
          FailureShift(steps, j, run);
          assert r.events[|r.events| - 1] == rest.events[|rest.events| - 1];
        }
      } else {
        assert r.events[0] == Started(steps[0], workdir);
      }
    }
  }

  /** A failure at step `j` of `steps[1..]` after a successful first step is a
      failure at step `j + 1` of `steps` with every earlier step successful. */
  lemma FailureShift(steps: seq<Step>, j: nat, run: PhaseRunner)
    requires j + 1 < |steps| && run(steps[0].command).Ok?
    requires forall k :: 0 <= k < j ==> run(steps[1..][k].command).Ok?
    ensures steps[j + 1] == steps[1..][j]
    ensures forall k :: 0 <= k < j + 1 ==> run(steps[k].command).Ok?
  {
    forall k | 0 < k < j + 1 ensures run(steps[k].command).Ok? {
      assert steps[k] == steps[1..][k - 1];
    }
  }

  /** Every script runs in the one working directory it was given. */
  lemma {:induction false} RunPhasesWorkdir(steps: seq<Step>, workdir: string, run: PhaseRunner)
    ensures forall e :: e in RunPhases(steps, workdir, run).events && e.Ran? ==> e.workdir == workdir
    decreases |steps|
  {
    if steps != [] {
      var ran := Started(steps[0], workdir);
      assert ran.workdir == workdir;
      if run(steps[0].command).Ok? {
        var rest := RunPhases(steps[1..], workdir, run).events;
        RunPhasesWorkdir(steps[1..], workdir, run);
        assert RunPhases(steps, workdir, run).events == [ran, Advanced] + rest;
      } else {
        assert RunPhases(steps, workdir, run).events == [ran];
      }
    }
  }

  /** Every event of a phase run belongs to the build phases. */
  lemma {:induction false} RunPhasesBuildOnly(steps: seq<Step>, workdir: string, run: PhaseRunner)
    ensures forall e :: e in RunPhases(steps, workdir, run).events ==> IsBuildEvent(e)
    decreases |steps|
  {
    if steps != [] && run(steps[0].command).Ok? {
      var rest := RunPhases(steps[1..], workdir, run).events;
      RunPhasesBuildOnly(steps[1..], workdir, run);
      assert RunPhases(steps, workdir, run).events == [Started(steps[0], workdir), Advanced] + rest;
    }
  }

  /* ---------------------------------------------------------------- paths */

  /** The directory checks at the top of `main`: canonicalize the input, then
      the output, then refuse either if it is a file. The first failure wins. */
  function CheckPaths(input: string, output: string, canonicalize: string -> Canonical)
    : (r: Result<(string, string)>)
    ensures r.Ok? <==> && canonicalize(input).Resolved? && canonicalize(output).Resolved?
                       && !canonicalize(input).isFile && !canonicalize(output).isFile
    ensures r.Ok? ==> r.value == (canonicalize(input).path, canonicalize(output).path)
    ensures canonicalize(input).Unresolved? ==> r == Halted(InputPathUnreadable(canonicalize(input).error))
    ensures canonicalize(input).Resolved? && canonicalize(output).Unresolved? ==>
      r == Halted(OutputPathUnreadable(canonicalize(output).error))
    ensures canonicalize(input).Resolved? && canonicalize(output).Resolved? ==>
      (canonicalize(input).isFile ==> r == Halted(InputIsFile)) &&
      (!canonicalize(input).isFile && canonicalize(output).isFile ==> r == Halted(OutputIsFile))
  {
    match canonicalize(input)
    case Unresolved(e) => Halted(InputPathUnreadable(e))
    case Resolved(inp, inputIsFile) =>
      match canonicalize(output)
      case Unresolved(e) => Halted(OutputPathUnreadable(e))
      case Resolved(out, outputIsFile) =>
        if inputIsFile then Halted(InputIsFile)
        else if outputIsFile then Halted(OutputIsFile)
        else Ok((inp, out))
  }

  /** Both directories are resolved before either is looked at: an output
      path that does not resolve is reported even when the input is a file,
      and every path failure ends the process with status 1. */
  lemma PathsResolvedFirst(input: string, output: string, canonicalize: string -> Canonical)
    ensures var r := CheckPaths(input, output, canonicalize);
      && (canonicalize(output).Unresolved? ==> r.Halted? && !r.halt.InputIsFile?)
      && (r.Halted? ==> r.halt.ExitStatus() == 1)
  {
  }

  /* -------------------------------------------------------------- package */

  /** `command::run` of a manifest script in `workdir`. */
  function PhaseRun(workdir: string, exec: (string, string) -> Option<ScriptOutput>): (run: PhaseRunner)
    ensures forall command :: run(command) == Run(command, workdir, exec)
  {
    command => Run(command, workdir, exec)
  }

  /** `Download::download` of the archive `names` names. */
  function Fetch(config: Config, names: Names, w: World): Traced<()> {
    Download(names, config.source.url, config.source.hash, w.fetch(config.source.url), w.unpack, w.digest)
  }

  /** `output.join(&down.file_name)`: the unpacked archive's directory, where
      every phase runs. */
  function Workdir(output: string, names: Names): string {
    JoinPath(output, names.fileName)
  }

  /** The three phases through `command::run` in `workdir`. */
  function Phased(build: ConfigBuild, workdir: string, exec: (string, string) -> Option<ScriptOutput>)
    : Traced<()>
  {
    RunPhases(Steps(build), workdir, PhaseRun(workdir, exec))
  }

  /** `first`, and only if it succeeds, `next`. */
  function Sequence(first: Traced<()>, next: Traced<()>): Traced<()> {
    if first.result.Halted? then first else Traced(first.events + next.events, next.result)
  }

  /** Everything `main` does once the manifest is parsed: name the archive,
      download and verify it into `output`, then run the three phases in the
      unpacked directory. */
  function Package(config: Config, output: string, w: World): Traced<()> {
    match NewDownload(w.lastSegment(config.source.url))
    case Halted(h) => Traced([], Halted(h))
    case Ok(names) => Sequence(Fetch(config, names, w), Phased(config.build, Workdir(output, names), w.exec))
  }

  /** `main`: the path checks, the manifest, then the package. */
  function Main(input: string, output: string, w: World): Traced<()> {
    match CheckPaths(input, output, w.canonicalize)
    case Halted(h) => Traced([], Halted(h))
    case Ok(dirs) =>
      var manifest := JoinPath(dirs.0, ManifestName);
      match w.readManifest(manifest)
      case None => Traced([ReadManifest(manifest)], Halted(ManifestUnreadable))
      case Some(config) =>
        var p := Package(config, dirs.1, w);
        Traced([ReadManifest(manifest)] + p.events, p.result)
  }

  /** The trace shows the archive's digest matching `hash`, with no build
      event before that comparison and nothing but build events after it. */
  ghost predicate VerifiedBeforeBuild(events: seq<Event>, hash: string) {
    exists k :: && 0 <= k < |events|
                && events[k] == Compared(hash, hash)
                && (forall i :: 0 <= i < k ==> !IsBuildEvent(events[i]))
                && (forall i :: k < i < |events| ==> IsBuildEvent(events[i]))
  }

  /** A verified download followed by phase events: the phases and the bar
      are those of the phase events alone, and the digest check separates the
      two. */
  lemma DownloadThenPhases(down: seq<Event>, phases: seq<Event>, hash: string)
    requires |down| > 0 && down[|down| - 1] == Compared(hash, hash)
    requires forall e :: e in down ==> !IsBuildEvent(e)
    requires forall e :: e in phases ==> IsBuildEvent(e)
    ensures Phases(down + phases) == Phases(phases)
    ensures Advances(down + phases) == Advances(phases)
    ensures VerifiedBeforeBuild(down + phases, hash)
  {
    NoBuildEvents(down);
    PhasesConcat(down, phases);
    AdvancesConcat(down, phases);
    SplitAtComparison(down, phases, hash);
  }

  /** The last event of `down` separates it from `phases`. */
  lemma SplitAtComparison(down: seq<Event>, phases: seq<Event>, hash: string)
    requires |down| > 0 && down[|down| - 1] == Compared(hash, hash)
    requires forall e :: e in down ==> !IsBuildEvent(e)
    requires forall e :: e in phases ==> IsBuildEvent(e)
    ensures VerifiedBeforeBuild(down + phases, hash)
  {
    var events := down + phases;
    var k := |down| - 1;
    forall i | 0 <= i < k ensures !IsBuildEvent(events[i]) {
      assert events[i] == down[i];
    }
    forall i | k < i < |events| ensures IsBuildEvent(events[i]) {
      assert events[i] == phases[i - |down|];
    }
    assert events[k] == Compared(hash, hash);
  }

  /** A download that stops the run hides the phases; one that verifies
      passes the result, the phases, the bar and the last event on to the
      phases that follow it. */
  lemma SequenceFacts(down: Traced<()>, phases: Traced<()>, hash: string)
    requires forall e :: e in down.events ==> !IsBuildEvent(e)
    requires down.result.Ok? ==> |down.events| > 0 && down.events[|down.events| - 1] == Compared(hash, hash)
    requires forall e :: e in phases.events ==> IsBuildEvent(e)
    ensures var r := Sequence(down, phases);
      && (down.result.Halted? ==> r == down && Phases(r.events) == [] && Advances(r.events) == 0)
      && (down.result.Ok? ==>
            && r.result == phases.result
            && Phases(r.events) == Phases(phases.events)
            && Advances(r.events) == Advances(phases.events)
            && VerifiedBeforeBuild(r.events, hash)
            && (phases.events != [] ==> r.events[|r.events| - 1] == phases.events[|phases.events| - 1]))
  {
    if down.result.Ok? {
      DownloadThenPhases(down.events, phases.events, hash);
    } else {
      NoBuildEvents(down.events);
    }
  }

  /** The phase run in `workdir`: build events only, all in `workdir`, the bar
      full exactly on success, the phases a prefix of setup, build, install. */
  lemma PhasedFacts(build: ConfigBuild, workdir: string, exec: (string, string) -> Option<ScriptOutput>)
    ensures var r := Phased(build, workdir, exec);
      && (forall e :: e in r.events ==> IsBuildEvent(e))
      && (forall e :: e in r.events && e.Ran? ==> e.workdir == workdir)
      && Advances(r.events) <= BuildBarLength
      && (Advances(r.events) == BuildBarLength <==> r.result.Ok?)
      && Advances(r.events) <= |Phases(r.events)| <= Advances(r.events) + 1
      && Phases(r.events) <= [Setup, Build, Install]
      && (r.result.Ok? ==> Phases(r.events) == [Setup, Build, Install])
  {
    var run := PhaseRun(workdir, exec);
    RunPhasesBuildOnly(Steps(build), workdir, run);
    RunPhasesWorkdir(Steps(build), workdir, run);
    StepsBar(build, workdir, run);
  }

  /** The bar and the phases of the three-phase run on its own. */
  lemma StepsBar(build: ConfigBuild, workdir: string, run: PhaseRunner)
    ensures var r := RunPhases(Steps(build), workdir, run);
      && Advances(r.events) <= BuildBarLength
      && (Advances(r.events) == BuildBarLength <==> r.result.Ok?)
      && Advances(r.events) <= |Phases(r.events)| <= Advances(r.events) + 1
      && Phases(r.events) <= [Setup, Build, Install]
      && (r.result.Ok? ==> Phases(r.events) == [Setup, Build, Install])
  {
    RunPhasesCount(Steps(build), workdir, run);
    RunPhasesOrder(Steps(build), workdir, run);
    assert StepPhases(Steps(build)) == [Setup, Build, Install];
  }

  /** No phase starts unless the archive was downloaded and its digest
      matched the manifest's: a successful package, or one that ran any
      phase, verified the download first and did nothing else afterwards. */
  lemma PackageVerifiesFirst(config: Config, output: string, w: World)
    ensures var r := Package(config, output, w);
      r.result.Ok? || Phases(r.events) != [] ==> VerifiedBeforeBuild(r.events, config.source.hash)
  {
    var n := NewDownload(w.lastSegment(config.source.url));
    if n.Ok? {
      var workdir := Workdir(output, n.value);
      PhasedFacts(config.build, workdir, w.exec);
      SequenceFacts(Fetch(config, n.value, w), Phased(config.build, workdir, w.exec), config.source.hash);
    }
  }

  /** The build bar (length 3) moves once per finished phase and is full
      exactly when the package succeeds; the phases run are a prefix of
      setup, build, install, and all three on success. */
  lemma PackageBuildBar(config: Config, output: string, w: World)
    ensures var r := Package(config, output, w);
      && Advances(r.events) <= BuildBarLength
      && (Advances(r.events) == BuildBarLength <==> r.result.Ok?)
      && Advances(r.events) <= |Phases(r.events)| <= Advances(r.events) + 1
      && Phases(r.events) <= [Setup, Build, Install]
      && (r.result.Ok? ==> Phases(r.events) == [Setup, Build, Install])
  {
    var n := NewDownload(w.lastSegment(config.source.url));
    if n.Ok? {
      var workdir := Workdir(output, n.value);
      PhasedFacts(config.build, workdir, w.exec);
      SequenceFacts(Fetch(config, n.value, w), Phased(config.build, workdir, w.exec), config.source.hash);
    }
  }

  /** All three scripts run in one shared directory, the archive's name
      without its suffix inside the output directory. */
  lemma PackageWorkdir(config: Config, output: string, w: World)
    ensures var r := Package(config, output, w);
      var n := NewDownload(w.lastSegment(config.source.url));
      forall e :: e in r.events && e.Ran? ==> n.Ok? && e.workdir == JoinPath(output, n.value.fileName)
  {
    var n := NewDownload(w.lastSegment(config.source.url));
    if n.Ok? {
      var workdir := Workdir(output, n.value);
      var down := Fetch(config, n.value, w);
      var phases := Phased(config.build, workdir, w.exec);
      PhasedFacts(config.build, workdir, w.exec);
      if down.result.Ok? {
        forall e | e in down.events + phases.events && e.Ran? ensures e.workdir == workdir {
          assert e !in down.events;
        }
      }
    }
  }

  /** Every script of `steps` exits with code 0 in `workdir`. */
  ghost predicate AllSucceed(steps: seq<Step>, workdir: string, exec: (string, string) -> Option<ScriptOutput>) {
    forall j :: 0 <= j < |steps| ==> Run(steps[j].command, workdir, exec).Ok?
  }

  /** A run that ended with `result` and whose last event is `last` stopped at
      a script of `steps` that failed with exactly that error after every
      earlier script succeeded. */
  ghost predicate StoppedAt(result: Result<()>, last: Event, steps: seq<Step>, workdir: string,
                            exec: (string, string) -> Option<ScriptOutput>) {
    exists j :: && 0 <= j < |steps|
                && result == Run(steps[j].command, workdir, exec)
                && last == Started(steps[j], workdir)
                && forall k :: 0 <= k < j ==> Run(steps[k].command, workdir, exec).Ok?
  }

  /** The phase run succeeds exactly when every script exits with code 0;
      otherwise it ends with the error of the first script that does not,
      and that script is the last one run. */
  lemma PhasedFailFast(build: ConfigBuild, workdir: string, exec: (string, string) -> Option<ScriptOutput>)
    ensures var r := Phased(build, workdir, exec);
      && (r.result.Ok? <==> AllSucceed(Steps(build), workdir, exec))
      && (r.result.Halted? ==>
            r.events != [] && StoppedAt(r.result, r.events[|r.events| - 1], Steps(build), workdir, exec))
  {
    var run := PhaseRun(workdir, exec);
    RunPhasesSucceeds(Steps(build), workdir, run);
    RunPhasesFailFast(Steps(build), workdir, run);
    RunPhasesCount(Steps(build), workdir, run);
  }

  /** A failing setup script ends the run with its own error: neither the
      build nor the install script runs, and the bar stays at 0. */
  lemma SetupFailureStops(build: ConfigBuild, workdir: string, exec: (string, string) -> Option<ScriptOutput>)
    requires Run(build.setup, workdir, exec).Halted?
    ensures var r := Phased(build, workdir, exec);
      && r == Traced([Ran(Setup, build.setup, workdir)], Run(build.setup, workdir, exec))
      && Phases(r.events) == [Setup] && Advances(r.events) == 0
  {
    var r := Phased(build, workdir, exec);
    assert r.events == [Ran(Setup, build.setup, workdir)];
  }

  /** Fail-fast for the whole package: it stops at the first of naming the
      archive, downloading and verifying it, and the three scripts that
      fails, and succeeds exactly when none does. */
  lemma PackageFailFast(config: Config, output: string, w: World)
    ensures var r := Package(config, output, w);
      var n := NewDownload(w.lastSegment(config.source.url));
      && (n.Halted? ==> r == Traced([], Halted(n.halt)))
      && (n.Ok? && Fetch(config, n.value, w).result.Halted? ==> r == Fetch(config, n.value, w))
      && (n.Ok? && Fetch(config, n.value, w).result.Ok? ==>
            var workdir := Workdir(output, n.value);
            && (r.result.Ok? <==> AllSucceed(Steps(config.build), workdir, w.exec))
            && (r.result.Halted? ==>
                  r.events != [] &&
                  StoppedAt(r.result, r.events[|r.events| - 1], Steps(config.build), workdir, w.exec)))
  {
    var n := NewDownload(w.lastSegment(config.source.url));
    if n.Ok? {
      var workdir := Workdir(output, n.value);
      var phases := Phased(config.build, workdir, w.exec);
      RunPhasesBuildOnly(Steps(config.build), workdir, PhaseRun(workdir, w.exec));
      PhasedFailFast(config.build, workdir, w.exec);
      SequenceFacts(Fetch(config, n.value, w), phases, config.source.hash);
      assert Package(config, output, w) == Sequence(Fetch(config, n.value, w), phases);
    }
  }

  /** A package whose URL ends in `<base><suffix>`, whose body unpacks with
      that suffix's decoder and hashes to the manifest's hash, and whose three
      scripts all exit with 0 in `<output>/<base>` succeeds, running setup,
      build and install there and filling the bar. */
  lemma PackageSucceeds(config: Config, output: string, w: World, base: string, d: Decoder, resp: Response)
    requires w.lastSegment(config.source.url) == Some(base + Suffix(d))
    requires base == [] || !IsWhitespace(base[0])
    requires w.fetch(config.source.url) == Some(resp)
    requires w.unpack(d, Flatten(resp.chunks)) && w.digest(Flatten(resp.chunks)) == config.source.hash
    requires AllSucceed(Steps(config.build), JoinPath(output, base), w.exec)
    ensures var r := Package(config, output, w);
      && r.result.Ok?
      && Phases(r.events) == [Setup, Build, Install]
      && Advances(r.events) == BuildBarLength
      && forall e :: e in r.events && e.Ran? ==> e.workdir == JoinPath(output, base)
  {
    var name := base + Suffix(d);
    assert [] + name + [] == name;
    NewDownloadSplit([], base, d, []);
    var names := Names(name, base, Suffix(d));
    DownloadUsesOwnDecoder(names, d, config.source.url, config.source.hash, resp, w.unpack, w.digest);
    PackageFailFast(config, output, w);
    PackageBuildBar(config, output, w);
    PackageWorkdir(config, output, w);
  }

  /* ----------------------------------------------------------------- main */

  /** The manifest `main` parses: `None` when a path check fails or the file
      cannot be opened, read or parsed. */
  function Manifest(input: string, output: string, w: World): Option<Config> {
    match CheckPaths(input, output, w.canonicalize)
    case Halted(_) => None
    case Ok(dirs) => w.readManifest(JoinPath(dirs.0, ManifestName))
  }

  /** The directories are checked before anything else happens; the manifest
      is read next, from the canonical input directory, and its failure is a
      panic; only then does the package start, in the canonical output
      directory. */
  lemma MainOrder(input: string, output: string, w: World)
    ensures var r := Main(input, output, w);
      var paths := CheckPaths(input, output, w.canonicalize);
      && (paths.Halted? ==> r == Traced([], Halted(paths.halt)) && ExitCode(r.result) == 1)
      && (paths.Ok? ==> r.events != [] && r.events[0] == ReadManifest(JoinPath(paths.value.0, ManifestName)))
      && (paths.Ok? && Manifest(input, output, w).None? ==>
            |r.events| == 1 && r.result == Halted(ManifestUnreadable) && ExitCode(r.result) == 101)
      && (Manifest(input, output, w).Some? ==>
            var p := Package(Manifest(input, output, w).value, paths.value.1, w);
            r.events[1..] == p.events && r.result == p.result)
  {
    var paths := CheckPaths(input, output, w.canonicalize);
    if paths.Ok? && Manifest(input, output, w).Some? {
      var p := Package(Manifest(input, output, w).value, paths.value.1, w);
      assert Main(input, output, w).events == [ReadManifest(JoinPath(paths.value.0, ManifestName))] + p.events;
    }
  }

  /** The package's trace behind the manifest read. */
  lemma BehindManifest(read: Event, p: seq<Event>)
    requires read.ReadManifest?
    ensures Phases([read] + p) == Phases(p) && Advances([read] + p) == Advances(p)
    ensures forall e :: e in [read] + p && e.Ran? ==> e in p
  {
    PhasesConcat([read], p);
    AdvancesConcat([read], p);
  }

  /** A trace that verifies before building still does behind one more
      non-build event. */
  lemma VerifiedBehind(e: Event, events: seq<Event>, hash: string)
    requires !IsBuildEvent(e) && VerifiedBeforeBuild(events, hash)
    ensures VerifiedBeforeBuild([e] + events, hash)
  {
    var k :| && 0 <= k < |events|
             && events[k] == Compared(hash, hash)
             && (forall i :: 0 <= i < k ==> !IsBuildEvent(events[i]))
             && (forall i :: k < i < |events| ==> IsBuildEvent(events[i]));
    var all := [e] + events;
    assert all[k + 1] == events[k];
    forall i | 0 <= i < k + 1 ensures !IsBuildEvent(all[i]) {
      if i > 0 { assert all[i] == events[i - 1]; }
    }
    forall i | k + 1 < i < |all| ensures IsBuildEvent(all[i]) {
      assert all[i] == events[i - 1];
    }
  }

  /** The build bar of `main`: at most 3, full exactly when the run succeeds,
      moved once per finished phase; the phases run are a prefix of setup,
      build, install, all three on success. */
  lemma MainBuildBar(input: string, output: string, w: World)
    ensures var r := Main(input, output, w);
      && Advances(r.events) <= BuildBarLength
      && (Advances(r.events) == BuildBarLength <==> r.result.Ok?)
      && Advances(r.events) <= |Phases(r.events)| <= Advances(r.events) + 1
      && Phases(r.events) <= [Setup, Build, Install]
      && (r.result.Ok? ==> Phases(r.events) == [Setup, Build, Install])
  {
    var paths := CheckPaths(input, output, w.canonicalize);
    if paths.Ok? {
      var read := ReadManifest(JoinPath(paths.value.0, ManifestName));
      var m := Manifest(input, output, w);
      if m.Some? {
        var p := Package(m.value, paths.value.1, w);
        PackageBuildBar(m.value, paths.value.1, w);
        BehindManifest(read, p.events);
        assert Main(input, output, w) == Traced([read] + p.events, p.result);
      } else {
        assert Main(input, output, w).events == [read];
      }
    }
  }

  /** No phase of `main` starts before the archive's digest matched the
      manifest's hash; after that comparison only the phases happen. */
  lemma MainVerifiesFirst(input: string, output: string, w: World)
    ensures var r := Main(input, output, w);
      r.result.Ok? || Phases(r.events) != [] ==>
        Manifest(input, output, w).Some? &&
        VerifiedBeforeBuild(r.events, Manifest(input, output, w).value.source.hash)
  {
    var paths := CheckPaths(input, output, w.canonicalize);
    if paths.Ok? {
      var read := ReadManifest(JoinPath(paths.value.0, ManifestName));
      var m := Manifest(input, output, w);
      if m.Some? {
        var p := Package(m.value, paths.value.1, w);
        PackageVerifiesFirst(m.value, paths.value.1, w);
        BehindManifest(read, p.events);
        assert Main(input, output, w) == Traced([read] + p.events, p.result);
        if p.result.Ok? || Phases(p.events) != [] {
          VerifiedBehind(read, p.events, m.value.source.hash);
        }
      } else {
        assert Main(input, output, w).events == [read];
      }
    }
  }

  /** Every phase of `main` runs in the same directory: the archive's name
      without its suffix inside the canonical output directory. */
  lemma MainWorkdir(input: string, output: string, w: World)
    ensures var r := Main(input, output, w);
      forall e :: e in r.events && e.Ran? ==>
        && CheckPaths(input, output, w.canonicalize).Ok?
        && Manifest(input, output, w).Some?
        && var n := NewDownload(w.lastSegment(Manifest(input, output, w).value.source.url));
           n.Ok? && e.workdir == JoinPath(CheckPaths(input, output, w.canonicalize).value.1, n.value.fileName)
  {
    var paths := CheckPaths(input, output, w.canonicalize);
    if paths.Ok? {
      var read := ReadManifest(JoinPath(paths.value.0, ManifestName));
      var m := Manifest(input, output, w);
      if m.Some? {
        var p := Package(m.value, paths.value.1, w);
        PackageWorkdir(m.value, paths.value.1, w);
        BehindManifest(read, p.events);
        assert Main(input, output, w) == Traced([read] + p.events, p.result);
      } else {
        assert Main(input, output, w).events == [read];
      }
    }
  }

  /** The process exit status of a run. */
  function ExitCode(r: Result<()>): (status: int)
    ensures status == 0 <==> r.Ok?
    ensures r.Halted? ==> (status == 1 <==> !r.halt.IsPanic())
  {
    if r.Ok? then 0 else r.halt.ExitStatus()
  }
}

=== FILE: rust_std.dfy ===
/** The few pieces of Rust's standard library the builder's logic rests on:
    `Option`, `str::trim`, `str::ends_with`, `str::replace` and `Path::join`.
    Strings are sequences of Unicode scalar values. Every pattern and suffix the
    builder uses is ASCII, so its byte length equals its character length and
    cutting `len() - suffix.len()` bytes off a name removes exactly the
    suffix's characters. */
module RustStd {

  /** `u8`. */
  newtype byte = x: int | 0 <= x < 256

  datatype Option<+T> = None | Some(value: T) {
    /** `Option::unwrap_or`. */
    function UnwrapOr(default: T): T {
      match this
      case Some(v) => v
      case None => default
    }
  }

  /* ---------------------------------------------------------------- trim */

  /** Unicode White_Space, the set `char::is_whitespace` (and so `str::trim`) tests. */
  predicate IsWhitespace(c: char) {
    || ('\t' <= c <= '\r')
    || c == ' '
    || c == '\U{0085}'
    || c == '\U{00A0}'
    || c == '\U{1680}'
    || ('\U{2000}' <= c <= '\U{200A}')
    || c == '\U{2028}'
    || c == '\U{2029}'
    || c == '\U{202F}'
    || c == '\U{205F}'
    || c == '\U{3000}'
  }

  predicate AllWhitespace(s: string) {
    forall i :: 0 <= i < |s| ==> IsWhitespace(s[i])
  }

  /** Neither end of `s` is whitespace. */
  predicate IsTrimmed(s: string) {
    s == [] || (!IsWhitespace(s[0]) && !IsWhitespace(s[|s| - 1]))
  }

  /** `s[i..j]` is `s` with whitespace cut from both ends: only whitespace
      outside the slice, and none at the slice's own ends. */
  ghost predicate TrimBounds(s: string, i: int, j: int) {
    && 0 <= i <= j <= |s|
    && AllWhitespace(s[..i])
    && AllWhitespace(s[j..])
    && IsTrimmed(s[i..j])
  }

  /** `r` is `s` with whitespace cut from both ends. */
  ghost predicate IsTrimOf(s: string, r: string) {
    exists i, j :: TrimBounds(s, i, j) && r == s[i..j]
  }

  /** `str::trim`: whitespace is cut from the front, then from the back. */
  function Trim(s: string): (r: string)
    ensures IsTrimmed(r)
    ensures |r| <= |s|
  {
    if |s| > 0 && IsWhitespace(s[0]) then Trim(s[1..])
    else if |s| > 0 && IsWhitespace(s[|s| - 1]) then Trim(s[..|s| - 1])
    else s
  }

  /** What `Trim` computes: `s` with whitespace cut from both ends. */
  lemma {:induction false} TrimSpec(s: string)
    ensures IsTrimOf(s, Trim(s))
    decreases |s|
  {
    if |s| > 0 && IsWhitespace(s[0]) {
      TrimSpec(s[1..]);
      var i, j :| TrimBounds(s[1..], i, j) && Trim(s[1..]) == s[1..][i..j];
      LeadingSpaceBounds(s, i, j);
    } else if |s| > 0 && IsWhitespace(s[|s| - 1]) {
      TrimSpec(s[..|s| - 1]);
      var i, j :| TrimBounds(s[..|s| - 1], i, j) && Trim(s[..|s| - 1]) == s[..|s| - 1][i..j];
      TrailingSpaceBounds(s, i, j);
    } else {
      assert s[..0] == [] && s[|s|..] == [] && s[0..|s|] == s;
      assert TrimBounds(s, 0, |s|);
    }
  }

  /** Trim bounds of `s` without a leading whitespace character, shifted by one. */
  lemma LeadingSpaceBounds(s: string, i: int, j: int)
    requires |s| > 0 && IsWhitespace(s[0])
    requires TrimBounds(s[1..], i, j)
    ensures TrimBounds(s, i + 1, j + 1) && s[i + 1..j + 1] == s[1..][i..j]
  {
    var t := s[1..];
    assert s[..i + 1] == [s[0]] + t[..i];
    assert s[j + 1..] == t[j..];
    assert s[i + 1..j + 1] == t[i..j];
  }

  /** Trim bounds of `s` without a trailing whitespace character still hold. */
  lemma TrailingSpaceBounds(s: string, i: int, j: int)
    requires |s| > 0 && IsWhitespace(s[|s| - 1])
    requires TrimBounds(s[..|s| - 1], i, j)
    ensures TrimBounds(s, i, j) && s[i..j] == s[..|s| - 1][i..j]
  {
    var t := s[..|s| - 1];
    assert s[..i] == t[..i];
    assert s[j..] == t[j..] + [s[|s| - 1]];
    assert s[i..j] == t[i..j];
  }

  /** A non-whitespace character of `s` lies inside any trim bounds of `s`. */
  lemma InsideTrimBounds(s: string, i: int, j: int, k: int)
    requires TrimBounds(s, i, j)
    requires 0 <= k < |s| && !IsWhitespace(s[k])
    ensures i <= k < j
  {
    forall x | 0 <= x < i ensures IsWhitespace(s[x]) {
      assert s[..i][x] == s[x];
    }
    forall x | j <= x < |s| ensures IsWhitespace(s[x]) {
      assert s[j..][x - j] == s[x];
    }
  }

  /** Two trim bounds of one string cut out the same slice. */
  lemma SameTrimBounds(s: string, i1: int, j1: int, i2: int, j2: int)
    requires TrimBounds(s, i1, j1) && TrimBounds(s, i2, j2)
    ensures s[i1..j1] == s[i2..j2]
  {
    if i1 < j1 {
      assert s[i1] == s[i1..j1][0] && s[j1 - 1] == s[i1..j1][j1 - i1 - 1];
      InsideTrimBounds(s, i2, j2, i1);
      InsideTrimBounds(s, i2, j2, j1 - 1);
    }
    if i2 < j2 {
      assert s[i2] == s[i2..j2][0] && s[j2 - 1] == s[i2..j2][j2 - i2 - 1];
      InsideTrimBounds(s, i1, j1, i2);
      InsideTrimBounds(s, i1, j1, j2 - 1);
    }
  }

  /** The trim of a string is determined by the characterisation alone. */
  lemma TrimOfUnique(s: string, r1: string, r2: string)
    requires IsTrimOf(s, r1) && IsTrimOf(s, r2)
    ensures r1 == r2
  {
    var i1, j1 :| TrimBounds(s, i1, j1) && r1 == s[i1..j1];
    var i2, j2 :| TrimBounds(s, i2, j2) && r2 == s[i2..j2];
    SameTrimBounds(s, i1, j1, i2, j2);
  }

  /** Trimming a string with no whitespace at its ends changes nothing. */
  lemma TrimTrimmed(s: string)
    requires IsTrimmed(s)
    ensures Trim(s) == s
  {
    assert s[0..|s|] == s && s[..0] == [] && s[|s|..] == [];
    assert TrimBounds(s, 0, |s|);
    TrimSpec(s);
    TrimOfUnique(s, Trim(s), s);
  }

  lemma AllWhitespaceConcat(a: string, b: string)
    requires AllWhitespace(a) && AllWhitespace(b)
    ensures AllWhitespace(a + b)
  {
  }

  /** Padding a string with whitespace shifts its trim bounds and keeps the slice. */
  lemma PaddedTrimBounds(lead: string, s: string, trail: string, i: int, j: int)
    requires AllWhitespace(lead) && AllWhitespace(trail)
    requires TrimBounds(s, i, j)
    ensures TrimBounds(lead + s + trail, |lead| + i, |lead| + j)
    ensures (lead + s + trail)[|lead| + i..|lead| + j] == s[i..j]
  {
    var t := lead + s + trail;
    var i', j' := |lead| + i, |lead| + j;
    assert t[i'..j'] == s[i..j];
    assert AllWhitespace(t[..i']) by {
      assert t[..i'] == lead + s[..i];
      AllWhitespaceConcat(lead, s[..i]);
    }
    assert AllWhitespace(t[j'..]) by {
      assert t[j'..] == s[j..] + trail;
      AllWhitespaceConcat(s[j..], trail);
    }
  }

  /** Whitespace around a string never reaches its trim. */
  lemma TrimIgnoresPadding(lead: string, s: string, trail: string)
    requires AllWhitespace(lead) && AllWhitespace(trail)
    ensures Trim(lead + s + trail) == Trim(s)
  {
    var r := Trim(s);
    TrimSpec(s);
    TrimSpec(lead + s + trail);
    var i, j :| TrimBounds(s, i, j) && r == s[i..j];
    PaddedTrimBounds(lead, s, trail, i, j);
    TrimOfUnique(lead + s + trail, Trim(lead + s + trail), r);
  }

  /* ------------------------------------------------------------ ends_with */

  /** `str::ends_with` for a string pattern. */
  predicate EndsWith(s: string, suffix: string) {
    |suffix| <= |s| && s[|s| - |suffix|..] == suffix
  }

  /** Of two suffixes of one string, the shorter is a suffix of the longer. */
  lemma EndsWithNested(s: string, a: string, b: string)
    requires EndsWith(s, a) && EndsWith(s, b) && |a| <= |b|
    ensures EndsWith(b, a)
  {
    assert b[|b| - |a|..] == s[|s| - |a|..];
  }

  /* -------------------------------------------------------------- replace */

  /** `p` occurs in `s` starting at index `i`. */
  predicate OccursAt(s: string, p: string, i: nat) {
    i + |p| <= |s| && s[i..i + |p|] == p
  }

  ghost predicate Absent(s: string, p: string) {
    forall i: nat :: !OccursAt(s, p, i)
  }

  /** `str::replace` with a non-empty pattern: scanning left to right, every
      occurrence of `p` that does not overlap an earlier replaced one becomes
      `r`; the replacement text itself is never rescanned. */
  function ReplaceAll(s: string, p: string, r: string): string
    requires |p| > 0
    decreases |s|
  {
    if |s| < |p| then s
    else if s[..|p|] == p then r + ReplaceAll(s[|p|..], p, r)
    else [s[0]] + ReplaceAll(s[1..], p, r)
  }

  /** Occurrences in a suffix are occurrences in the whole, shifted. */
  lemma OccursShift(s: string, p: string, k: nat, i: nat)
    requires k <= |s|
    ensures OccursAt(s[k..], p, i) <==> OccursAt(s, p, k + i)
  {
    if i + |p| <= |s| - k {
      assert s[k..][i..i + |p|] == s[k + i..k + i + |p|];
    }
  }

  /** Replacing never shrinks a string when the replacement is at least as long
      as the pattern, and never grows it when it is at most as long. */
  lemma {:induction false} ReplaceAllLength(s: string, p: string, r: string)
    requires |p| > 0
    ensures |r| >= |p| ==> |ReplaceAll(s, p, r)| >= |s|
    ensures |r| <= |p| ==> |ReplaceAll(s, p, r)| <= |s|
    decreases |s|
  {
    if |s| < |p| {
    } else if s[..|p|] == p {
      ReplaceAllLength(s[|p|..], p, r);
    } else {
      ReplaceAllLength(s[1..], p, r);
    }
  }

  /** A string is left unchanged by a replacement exactly when the pattern does
      not occur in it, or is replaced by itself. */
  lemma {:induction false} ReplaceAllFixed(s: string, p: string, r: string)
    requires |p| > 0
    ensures ReplaceAll(s, p, r) == s <==> (Absent(s, p) || r == p)
    decreases |s|
  {
    if |s| < |p| {
      assert Absent(s, p);
    } else if s[..|p|] == p {
      assert OccursAt(s, p, 0);
      var rest := s[|p|..];
      ReplaceAllFixed(rest, p, r);
      if r == p {
        assert ReplaceAll(rest, p, r) == rest;
        assert s == p + rest;
      } else {
        ReplaceAllLength(rest, p, r);
        if |r| == |p| { assert ReplaceAll(s, p, r)[..|r|] == r; }
      }
    } else {
      assert !OccursAt(s, p, 0);
      var rest := s[1..];
      ReplaceAllFixed(rest, p, r);
      assert s == [s[0]] + rest;
      forall i: nat
        ensures OccursAt(s, p, 1 + i) <==> OccursAt(rest, p, i)
      {
        OccursShift(s, p, 1, i);
      }
      if Absent(rest, p) {
        forall i: nat ensures !OccursAt(s, p, i) {
          if i > 0 { assert OccursAt(s, p, 1 + (i - 1)) <==> OccursAt(rest, p, i - 1); }
        }
      }
      if Absent(s, p) {
        forall i: nat ensures !OccursAt(rest, p, i) {
          assert !OccursAt(s, p, 1 + i);
        }
      }
    }
  }

  /** A character missing from a string is missing from its tail. */
  lemma NotInTail(s: string, c: char)
    requires |s| > 0 && c !in s
    ensures c !in s[1..]
  {
    assert s == [s[0]] + s[1..];
  }

  /** A string whose characters never start the pattern passes through. */
  lemma {:induction false} ReplaceAllAbsent(s: string, p: string, r: string)
    requires |p| > 0 && p[0] !in s
    ensures ReplaceAll(s, p, r) == s
    decreases |s|
  {
    if |s| >= |p| {
      assert s[..|p|][0] == s[0];
      NotInTail(s, p[0]);
      ReplaceAllAbsent(s[1..], p, r);
    }
  }

  /** A match at the front is replaced and scanning resumes after it. */
  lemma ReplaceAllMatch(s: string, p: string, r: string)
    requires |p| > 0 && OccursAt(s, p, 0)
    ensures ReplaceAll(s, p, r) == r + ReplaceAll(s[|p|..], p, r)
  {
    assert s[..|p|] == s[0..|p|];
  }

  /** Without a match at the front, the first character is kept. */
  lemma ReplaceAllSkip(s: string, p: string, r: string)
    requires |p| > 0 && |s| > 0 && !OccursAt(s, p, 0)
    ensures ReplaceAll(s, p, r) == [s[0]] + ReplaceAll(s[1..], p, r)
  {
    assert |s| < |p| || s[..|p|] == s[0..|p|];
    if |s| < |p| {
      assert s == [s[0]] + s[1..];
    }
  }

  /** An occurrence in `a` is an occurrence in `a + b`. */
  lemma OccursInPrefix(a: string, b: string, p: string, i: nat)
    requires OccursAt(a, p, i)
    ensures OccursAt(a + b, p, i)
  {
    assert (a + b)[i..i + |p|] == a[i..i + |p|];
  }

  /** No occurrence of `p` in `a + b` starts in `a` and ends in `b`. */
  ghost predicate NoStraddle(a: string, b: string, p: string) {
    forall i: nat :: i < |a| < i + |p| ==> !OccursAt(a + b, p, i)
  }

  /** Cutting a prefix off `a` keeps the boundary free of occurrences. */
  lemma NoStraddleTail(a: string, b: string, p: string, k: nat)
    requires k <= |a| && NoStraddle(a, b, p)
    ensures (a + b)[k..] == a[k..] + b
    ensures NoStraddle(a[k..], b, p)
  {
    var s := a + b;
    assert s[k..] == a[k..] + b;
    forall i: nat | i < |a[k..]| < i + |p|
      ensures !OccursAt(a[k..] + b, p, i)
    {
      OccursShift(s, p, k, i);
    }
  }

  /** Replacing in a concatenation replaces in each part, provided no occurrence
      straddles the boundary. */
  lemma {:induction false} ReplaceAllConcat(a: string, b: string, p: string, r: string)
    requires |p| > 0
    requires NoStraddle(a, b, p)
    ensures ReplaceAll(a + b, p, r) == ReplaceAll(a, p, r) + ReplaceAll(b, p, r)
    decreases |a|
  {
    if a == [] {
      assert a + b == b;
    } else if OccursAt(a + b, p, 0) {
      assert |p| <= |a|;
      NoStraddleTail(a, b, p, |p|);
      ReplaceAllConcat(a[|p|..], b, p, r);
      ConcatMatchStep(a, b, p, r);
    } else {
      NoStraddleTail(a, b, p, 1);
      ReplaceAllConcat(a[1..], b, p, r);
      ConcatSkipStep(a, b, p, r);
    }
  }

  /** One step of `ReplaceAllConcat` where the pattern starts `a`. */
  lemma ConcatMatchStep(a: string, b: string, p: string, r: string)
    requires 0 < |p| <= |a| && OccursAt(a + b, p, 0)
    requires (a + b)[|p|..] == a[|p|..] + b
    requires ReplaceAll(a[|p|..] + b, p, r) == ReplaceAll(a[|p|..], p, r) + ReplaceAll(b, p, r)
    ensures ReplaceAll(a + b, p, r) == ReplaceAll(a, p, r) + ReplaceAll(b, p, r)
  {
    assert a[0..|p|] == (a + b)[0..|p|];
    ReplaceAllMatch(a + b, p, r);
    ReplaceAllMatch(a, p, r);
    var rest := a[|p|..];
    assert r + (ReplaceAll(rest, p, r) + ReplaceAll(b, p, r))
        == (r + ReplaceAll(rest, p, r)) + ReplaceAll(b, p, r);
  }

  /** One step of `ReplaceAllConcat` where the pattern does not start `a`. */
  lemma ConcatSkipStep(a: string, b: string, p: string, r: string)
    requires |p| > 0 && |a| > 0 && !OccursAt(a + b, p, 0)
    requires (a + b)[1..] == a[1..] + b
    requires ReplaceAll(a[1..] + b, p, r) == ReplaceAll(a[1..], p, r) + ReplaceAll(b, p, r)
    ensures ReplaceAll(a + b, p, r) == ReplaceAll(a, p, r) + ReplaceAll(b, p, r)
  {
    var rest := a[1..];
    ReplaceAllSkip(a + b, p, r);
    if OccursAt(a, p, 0) {
      OccursInPrefix(a, b, p, 0);
    }
    ReplaceAllSkip(a, p, r);
    assert (a + b)[0] == a[0];
    assert [a[0]] + (ReplaceAll(rest, p, r) + ReplaceAll(b, p, r))
        == ([a[0]] + ReplaceAll(rest, p, r)) + ReplaceAll(b, p, r);
  }

  /** A prefix with no character that starts the pattern passes through. */
  lemma ReplaceAllAfterPlain(a: string, b: string, p: string, r: string)
    requires |p| > 0 && p[0] !in a
    ensures ReplaceAll(a + b, p, r) == a + ReplaceAll(b, p, r)
  {
    forall i: nat | i < |a| < i + |p|
      ensures !OccursAt(a + b, p, i)
    {
      assert (a + b)[i] == a[i];
    }
    ReplaceAllConcat(a, b, p, r);
    ReplaceAllAbsent(a, p, r);
  }

  /* ------------------------------------------------------------ Path::join */

  /** `Path::join` on Unix: an absolute component replaces the base; otherwise a
      `/` goes between them unless the base is empty or already ends in one. */
  function JoinPath(base: string, component: string): (r: string)
    ensures EndsWith(r, component)
    ensures component != [] && component[0] == '/' ==> r == component
    ensures (component == [] || component[0] != '/') ==> r[..|r| - |component|] in {base, base + "/"}
    ensures (component == [] || component[0] != '/') ==>
      (r[..|r| - |component|] == base + "/" <==> |base| > 0 && base[|base| - 1] != '/')
  {
    if |component| > 0 && component[0] == '/' then component
    else if |base| > 0 && base[|base| - 1] != '/' then base + "/" + component
    else base + component
  }

  /** The separator `Path::join` puts after `base`. */
  function Separator(base: string): string {
    if |base| > 0 && base[|base| - 1] != '/' then "/" else ""
  }

  lemma JoinPathRelative(base: string, component: string)
    requires component == [] || component[0] != '/'
    ensures JoinPath(base, component) == base + Separator(base) + component
  {
  }

  /** Joining is associative: `a.join(b).join(c)` names the same path as
      `a.join(b.join(c))`, with the separator rules above. */
  lemma JoinPathAssociative(a: string, b: string, c: string)
    ensures JoinPath(JoinPath(a, b), c) == JoinPath(a, JoinPath(b, c))
  {
    if |c| > 0 && c[0] == '/' {
    } else if |b| > 0 && b[0] == '/' {
      JoinPathRelative(b, c);
      assert JoinPath(b, c)[0] == b[0];
    } else if |b| == 0 {
      JoinEmptyMiddle(a, c);
    } else {
      JoinRelativeMiddle(a, b, c);
    }
  }

  /** Joining an empty component only ends the base with a separator, which
      the next join then does not repeat. */
  lemma JoinEmptyMiddle(a: string, c: string)
    requires c == [] || c[0] != '/'
    ensures JoinPath(JoinPath(a, []), c) == JoinPath(a, JoinPath([], c))
  {
    var sa := Separator(a);
    JoinPathRelative(a, []);
    JoinPathRelative([], c);
    assert JoinPath([], c) == c;
    assert JoinPath(a, []) == a + sa;
    assert Separator(a + sa) == [] by {
      if |a| > 0 && a[|a| - 1] != '/' {
        assert (a + "/")[|a|] == '/';
      }
    }
    JoinPathRelative(a + sa, c);
    JoinPathRelative(a, c);
  }

  /** With a relative, non-empty middle component both groupings put one
      separator after `a` and one after `b`. */
  lemma JoinRelativeMiddle(a: string, b: string, c: string)
    requires |b| > 0 && b[0] != '/' && (c == [] || c[0] != '/')
    ensures JoinPath(JoinPath(a, b), c) == JoinPath(a, JoinPath(b, c))
  {
    JoinLeftGrouping(a, b, c);
    JoinRightGrouping(a, b, c);
  }

  lemma JoinLeftGrouping(a: string, b: string, c: string)
    requires |b| > 0 && b[0] != '/' && (c == [] || c[0] != '/')
    ensures JoinPath(JoinPath(a, b), c) == a + Separator(a) + b + Separator(b) + c
  {
    var ab := a + Separator(a) + b;
    JoinPathRelative(a, b);
    SeparatorAfter(a + Separator(a), b);
    JoinPathRelative(ab, c);
  }

  lemma JoinRightGrouping(a: string, b: string, c: string)
    requires |b| > 0 && b[0] != '/' && (c == [] || c[0] != '/')
    ensures JoinPath(a, JoinPath(b, c)) == a + Separator(a) + b + Separator(b) + c
  {
    assert a + Separator(a) + (b + Separator(b) + c) == a + Separator(a) + b + Separator(b) + c;
    var bc := JoinPath(b, c);
    JoinPathRelative(b, c);
    JoinStartsLikeBase(b, c);
    JoinPathRelative(a, bc);
  }

  /** A relative join starts where its non-empty base starts. */
  lemma JoinStartsLikeBase(b: string, c: string)
    requires |b| > 0 && (c == [] || c[0] != '/')
    ensures |JoinPath(b, c)| > 0 && JoinPath(b, c)[0] == b[0]
  {
    JoinPathRelative(b, c);
  }

  /** Only the last character decides the separator. */
  lemma SeparatorAfter(x: string, b: string)
    requires |b| > 0
    ensures Separator(x + b) == Separator(b)
  {
    assert (x + b)[|x + b| - 1] == b[|b| - 1];
  }
}

=== FILE: trace.dfy ===
/** The observable effects of one run, in the order they happen, and a few
    views of such a trace: which phases ran, how far the build bar moved. */
module Trace {
  import opened Log
  import opened Decompression

  /** The three build phases, in manifest order. */
  datatype Phase = Setup | Build | Install

  datatype Event =
      /** SOMEBUILD.toml is opened at this path. */
    | ReadManifest(path: string)
      /** The HTTP GET for the source archive is sent. */
    | Requested(url: string)
      /** The download bar is moved to this position after a chunk arrives. */
    | SetPosition(position: nat)
      /** The tar stream decoded by this decoder has been unpacked. */
    | Unpacked(decoder: Decoder)
      /** The finalised digest is compared with the manifest's hash. */
    | Compared(expected: string, found: string)
      /** A phase's manifest script goes through `command::run` with this
          working directory. */
    | Ran(phase: Phase, command: string, workdir: string)
      /** The build bar is incremented by one. */
    | Advanced

  /** A result together with the effects that led to it. */
  datatype Traced<+T> = Traced(events: seq<Event>, result: Result<T>)

  /** Events that belong to the build phases. */
  predicate IsBuildEvent(e: Event) {
    e.Ran? || e.Advanced?
  }

  /** The phases run, in the order their scripts started. */
  function Phases(events: seq<Event>): (r: seq<Phase>)
    ensures |r| <= |events|
  {
    if events == [] then []
    else (if events[0].Ran? then [events[0].phase] else []) + Phases(events[1..])
  }

  /** The build bar's position: how many times it was incremented. */
  function Advances(events: seq<Event>): (r: nat)
    ensures r <= |events|
  {
    if events == [] then 0
    else (if events[0].Advanced? then 1 else 0) + Advances(events[1..])
  }

  lemma {:induction false} PhasesConcat(a: seq<Event>, b: seq<Event>)
    ensures Phases(a + b) == Phases(a) + Phases(b)
    decreases |a|
  {
    if a == [] {
      assert a + b == b;
    } else {
      var head: seq<Phase> := if a[0].Ran? then [a[0].phase] else [];
      assert (a + b)[0] == a[0];
      assert (a + b)[1..] == a[1..] + b;
      PhasesConcat(a[1..], b);
      assert Phases(a + b) == head + (Phases(a[1..]) + Phases(b));
      assert head + (Phases(a[1..]) + Phases(b)) == (head + Phases(a[1..])) + Phases(b);
    }
  }

  lemma {:induction false} AdvancesConcat(a: seq<Event>, b: seq<Event>)
    ensures Advances(a + b) == Advances(a) + Advances(b)
    decreases |a|
  {
    if a == [] {
      assert a + b == b;
    } else {
      assert (a + b)[1..] == a[1..] + b;
      AdvancesConcat(a[1..], b);
    }
  }

  /** A trace without build events has no phases and leaves the build bar at 0. */
  lemma {:induction false} NoBuildEvents(events: seq<Event>)
    requires forall e :: e in events ==> !IsBuildEvent(e)
    ensures Phases(events) == [] && Advances(events) == 0
    decreases |events|
  {
    if events != [] {
      assert events[0] in events;
      NoBuildEvents(events[1..]);
    }
  }
}
